=== FILE: README.md ===
# ffspot download core in Dafny

This project models the core of ffspot, a command-line tool that downloads
tracks from a streaming service and encodes each one to a local file by
piping the audio into an external encoder (ffmpeg). The model covers two parts.

- **Path templates** (`template.dfy`). A template is a pattern such as
  `%a/%b/%s - %t` whose `%`-codes stand for track fields. Compiling turns the
  pattern into components. Rendering substitutes a field set. Destination paths
  are rendered from fields whose strings have had every path separator `/`
  replaced by a space. Sequence numbers are zero-padded. Track, disc and year
  print as signed decimals (`decimal.dfy`).
- **The download orchestrator** (`download.dfy`). It covers:
  - configuration checks: path template, encoding profile, quality ladder,
    profile arguments;
  - per track: choosing the file format, building the destination path, the
    skip-existing rule, cover-art handling, assembling the encoder command line
    and discarding the 167 junk bytes at the head of the stream;
  - the batch loop, which records each failure with its track id, counts skips
    and never stops early.

Each step that works by updating a variable in a loop is a `method` proved
equal to a specification function: `Compile`, `Resolve`, `SelectFile`,
`JoinArtists`, `AppendRendered`, `CompileProfileArgs`, `DownloadTrack`,
`Tally` and `Download`. The properties are proved about those functions.

Network, file system and encoder requests are answers supplied by an
`Environment` value of functions, one per kind of request. The value is fixed
for the whole batch, so the model does not see the file system change between
tracks (see "Left out").

## Model

| member | source | states |
|---|---|---|
| Template.SanitizeMeaning | src/template.rs:34-48 | the result is path-safe; every string field has each `/` replaced by a space with all other characters kept; numeric fields are unchanged; a field set that is already safe is returned unchanged |
| Template.SanitizeStringMeaning | src/template.rs:69-75 | the output has no `/`; it is the input with every `/` turned into one space; a clean input is returned unchanged |
| Template.ReplaceReservedReplaces | src/template.rs:71 | replacement is character by character and keeps the length |
| Template.SanitizeStringIdempotent | src/template.rs:69-75 | sanitising twice is the same as sanitising once |
| Template.SanitizeIdempotent | src/template.rs:35-48 | sanitising a field set twice is the same as once |
| Template.FieldFor | src/template.rs:89-99 | a code letter is accepted exactly when it is one of `a t b s n d l y p`, and it always denotes a field, never a literal |
| Template.Code | src/template.rs:90-98 | every field has a code letter that maps back to it and is not `%` |
| Template.Components | src/template.rs:78-108 | a pattern has components exactly when every `%` is followed by a valid code; they print back to the pattern and are canonical (no empty or adjacent literals) |
| Template.Compiled | src/template.rs:78-108 | compile succeeds exactly on well-formed patterns; failure names the pattern; success prints back to the pattern |
| Template.UnparseInjective | src/template.rs:82-107 | two canonical component lists that print to the same pattern are equal, so compiled components are uniquely determined |
| Template.UnparseWellFormed | src/template.rs:82-107 | printing canonical components gives a pattern that compiles |
| Template.CompileUnparse | src/template.rs:78-108 | compiling the print of canonical components returns those components (round trip) |
| Template.CompileWithoutMarker | src/template.rs:103-107 | a pattern without `%` compiles to no components when empty, otherwise to one literal holding all of it |
| Template.Compile | src/template.rs:78-108 | the byte-scanning loop returns exactly `Compiled(pattern)`: the same components on success and the same error on a bad or dangling `%` |
| Template.Resolve | src/template.rs:110-130 | appending each component's text in order yields `Render(t, f)`; a component's text is `RenderComponent`: literals and string fields verbatim, the sequence number zero-padded to its width, track, disc and year as signed decimals |
| Template.RenderCompiled | src/template.rs:78-130 | rendering a compiled pattern equals substituting each `%`-code in the pattern text directly |
| Template.RenderWithoutMarker | src/template.rs:103-130 | a pattern with no `%` renders to itself for every field set |
| Template.SanitizedRenderClean | src/template.rs:110-130 | when no literal of the template holds a `/`, rendering with sanitised fields produces none |
| Template.CountReservedClean | src/template.rs:69-75 | a string has no `/` exactly when it counts zero of them |
| Template.SanitizedRenderReserved | src/template.rs:35-48 | for every template and field set, the `/` characters of the text rendered from sanitised fields are exactly those of the template's literals, so no field value opens a directory level |
| Template.SeqFieldWidth | src/template.rs:118-121 | with the batch's digit width, a sequence number in 1..count renders as exactly that many digits and reads back as itself |
| Decimal.NatToDecimal | src/template.rs:122-125 | the decimal digits of a number have no leading zero, and their count k satisfies 10^(k-1) <= n < 10^k |
| Decimal.IntToDecimal | src/template.rs:122-125 | a signed number prints with a leading `-` exactly when negative, followed by digits with no leading zero unless the number is 0 |
| Decimal.IntDecimalRoundTrip | src/template.rs:122-125 | reading a printed signed number back yields the number |
| Decimal.ZeroPad | src/template.rs:118-121 | padding keeps the digits as a suffix, fills the front with `0`, and never truncates |
| Decimal.PaddedNatMeaning | src/template.rs:118-121 | a zero-padded number is all digits, `max(width, digits)` long, and reads back as the number |
| Decimal.DigitsMonotone | src/download.rs:103-104 | a smaller number never has more digits, so the track count's width fits every sequence number |
| Download.FirstAvailable | src/download.rs:38-48 | no file exactly when no allowed format is offered; otherwise the file of the earliest offered allowed format |
| Download.SelectFile | src/download.rs:38-48 | the loop returns `FirstAvailable(files, allowed)` |
| Download.AllowedFormats | src/download.rs:66-78 | only qualities 320, 160 and 96 are accepted, anything else gives `InvalidQuality`; the list starts at the requested tier and contains exactly the tiers at or below it, best first |
| Download.LadderMonotone | src/download.rs:66-78 | a higher quality setting selects a file whenever a lower one would |
| Download.LadderFallback | src/download.rs:66-78 | at quality 320, a track offering only 96 gets the 96 file, and a track offering none of the tiers gets nothing |
| Download.JoinSnoc | src/download.rs:174-181 | adding a name appends one separator and the name |
| Download.JoinLength | src/download.rs:174-181 | the joined string holds all names plus exactly one separator per gap |
| Download.JoinArtists | src/download.rs:174-181 | the loop yields the names with the separator between neighbours and none at either end |
| Download.Truncate | src/download.rs:197-199 | the result is a prefix of the string, cut to the limit only when longer |
| Download.DestinationPath | src/download.rs:196-201 | the path is the rendered text (cut to the limit if one is set) followed by `.` and the extension; its length is at most limit + 1 + extension |
| Download.TrackPathClean | src/download.rs:183-201 | when the path template's literals and the extension have no `/`, neither does the destination path |
| Download.TrackPathReserved | src/download.rs:183-201 | the destination path holds at most as many `/` as the path template's literals and the extension together, and exactly that many when no length limit is set |
| Download.HighestCover | src/download.rs:256-257 | the chosen cover has the greatest height, and no later cover ties it (the last maximum wins) |
| Download.CoverInput | src/download.rs:251-289 | an extra encoder input exists only when embedding is on and the album has covers; no covers means no cover step at all |
| Download.EncoderArgs | src/download.rs:242-295 | the command line is the fixed six-word prefix, then `-i` and the cover path when embedding, then each profile argument rendered with the unsanitised fields, then the destination path |
| Download.AppendRendered | src/download.rs:291-293 | the loop appends exactly the rendered arguments |
| Download.DropGarbage | src/download.rs:312-313 | a stream shorter than 167 bytes is an error; otherwise the first 167 bytes are removed and the rest kept |
| Download.ExitOutcome | src/download.rs:319-326 | success exactly on exit code 0; a non-zero code is reported as `EncoderExit` with that code and a signal as `EncoderSignalled` |
| Download.CoverEmbedded | src/download.rs:254-268 | with embedding on, the tallest cover is fetched and staged; the track's extra encoder input is exactly the staged file, and a failed fetch or a failed staging fails the track with that step's own error |
| Download.CoverExternal | src/download.rs:269-287 | with embedding off and an external cover name, an existing cover file is tolerated, any other create error fails the track, after a fresh create the step succeeds exactly when the cover is fetched and written and otherwise fails with the fetch's or the write's own error, and the encoder gets no extra input |
| Download.CoverNone | src/download.rs:251-289 | with neither embedding nor an external cover name there is no cover step |
| Download.AddCover | src/download.rs:251-289 | the cover step appends `-i` and the cover file when the art is embedded and nothing otherwise; a failing cover step's error is passed on unchanged (which error that is: `CoverEmbedded`, `CoverExternal`) |
| Download.EncodeOutcome | src/download.rs:299-334 | a successful encode always reports "downloaded"; once the encoder has started, a short stream fails with `StreamTooShort` |
| Download.EncodeSucceeds | src/download.rs:299-326 | an encode succeeds exactly when the encoder starts, the stream has the 167 junk bytes, and the encoder fed the rest exits with 0; a failed start or a non-zero exit code is reported |
| Download.TrackSucceeds | src/download.rs:196-335 | a track is downloaded exactly when its directory is in place, it is not skipped, an allowed file is offered and its stream opens, the cover step succeeds and the encode succeeds |
| Download.TrackFails | src/download.rs:204-289 | a failing track reports the first failing step's own error: the directory preparation, then `NoSuitableFile` with the track's id when no allowed format is offered, then the stream, then the cover step |
| Download.SkipExactly | src/download.rs:196-211 | a track reports "skipped" exactly when its parent directory could be prepared, skip-existing is set and the path exists; any success implies the parent was prepared |
| Download.Transfer | src/download.rs:213-335 | once past the skip check, a track either fails or reports "downloaded", never "skipped" |
| Download.SkipBeforeNetwork | src/download.rs:209-211 | a skipped track's outcome does not depend on its formats or on any stream, image, cover-file or encoder answer |
| Download.NoSkipIgnoresExisting | src/download.rs:209-211 | without skip-existing, whether the destination exists makes no difference |
| Download.DownloadTrack | src/download.rs:173-335 | the step-by-step pipeline returns `TrackOutcome` for the track, rendering with the field set `TrackFields` (artists joined with the configured separator, languages joined with ", ", the album's name, year and label, the sequence number and its width) |
| Download.SeqMaxDigits | src/download.rs:103-104 | the width is the track count's digit count: at least 1, with 10^(w-1) <= count < 10^w |
| Download.CompileAll | src/download.rs:80-83 | the arguments compile exactly when each is well-formed; otherwise the error names the first bad argument |
| Download.SetupDecides | src/download.rs:57-83 | setup succeeds exactly when the path template is well-formed, the profile exists, its quality is 320, 160 or 96 and every argument is well-formed; otherwise it reports the first failing check in that order |
| Download.SetupBadArgument | src/download.rs:80-83 | with the earlier checks passed, the error names the first ill-formed profile argument |
| Download.CompileProfileArgs | src/download.rs:80-83 | the loop returns `CompileAll(args)` and stops at the first bad argument |
| Download.Setup | src/download.rs:57-83 | the run plan uses the CLI output pattern or else the configured one, and the CLI profile or else the default profile; the profile must exist, its quality must be valid and its arguments must compile; the length limit and the external cover name are passed through unchanged |
| Download.OutcomeAt | src/download.rs:111-129 | the outcome recorded at position i is track i's own, downloaded with sequence number i + 1 |
| Download.DownloadNext | src/download.rs:111-129 | downloading track i extends the outcomes of the tracks before it by exactly that track's outcome |
| Download.Record | src/download.rs:131-135 | a failure is appended with its error and the track's id, a skip adds one to the count, and a download changes neither |
| Download.TallyPartition | src/download.rs:131-135 | failures, skips and successes add up to the number of tracks |
| Download.FailureRecorded | src/download.rs:132 | every failed track is reported with its own error and id |
| Download.FailuresAreFailed | src/download.rs:132 | every reported failure belongs to a track that failed with that error |
| Download.BatchSequenceNumber | src/download.rs:103-121 | track i gets sequence number i + 1, rendered at the batch's digit width, which reads back as i + 1 |
| Download.ConfigErrorsFirst | src/download.rs:57-101 | a configuration error is returned before track resolution and before any track is touched |
| Download.Tally | src/download.rs:108-136 | the loop's error list and skip count are those of the track outcomes |
| Download.Download | src/download.rs:50-156 | the whole run returns the first configuration or resolution error, or else the tally of every track |

## Left out

- Windows reserved characters (src/template.rs:56-67) are not modelled. Only the unix set, `/` alone, is.
- Strings are sequences of characters. Compiling scans UTF-8 bytes, but `%` and the code letters are ASCII, so the two views agree.
- Download.Truncate counts characters, while `String::truncate` counts bytes and panics when the cut falls inside a multi-byte character. That panic is not modelled.
- Template.Resolve never fails. Writing into a `String` cannot fail, so the `?` in the source never fires.
- Integer widths are not modelled: `usize` sequence numbers and `i32` track, disc and year values are unbounded integers here. The values printed are the same.
- Download.JoinArtists follows the release build for an empty artist list. `len() - 1` wraps, the loop never runs and the result is empty. A debug build panics there instead.
- Network, file system and encoder requests are not modelled. These are the audio key, CDN URL, HTTP GET, content-length, decryption, directory creation, the existence probe, temporary and cover files, and spawning, feeding and waiting for the encoder. Each one is an answer of an `Environment` function, and its errors are passed on unchanged.
- A path with no parent is not modelled separately. That error is part of the `prepareParent` answer.
- Removing the partial output file after an encoder failure (src/download.rs:329-332) is a file-system side effect and is not modelled. The reported error is.
- The failure of a blocking task to join is not modelled.
- Converting the track id to base 62 for messages (src/download.rs:218) is not modelled. It is assumed to succeed, and the `NoSuitableFile` error carries the numeric id.
- Progress bars, the summary printed to the terminal (src/download.rs:138-153) and the file name shown in messages are not modelled. Download.Download returns the errors and the skip count that would be printed.
- Track resolution (src/resolve.rs) is not part of this model. Its result is an input to Download.Download.
- Configuration loading and argument parsing (src/config.rs, src/cli.rs) are not part of this model. Fields are named as the orchestrator reads them. `max_filename_len` and `external_cover_art` are read at src/download.rs:197 and src/download.rs:127 but are not declared in config.rs or cli.rs. Each is modelled as an optional field of `Config` and `Args` respectively.
- Download.Tally and Download.TrackOutcome answer every track from one `Environment`, so the file system is the same for all tracks of a batch. A file written by an earlier track is not seen by a later track's existence check (src/download.rs:209). For example, with the same track listed twice, a path template without `%s` and skip-existing on, the source reports "downloaded, skipped". The model reports both the same way.
- Download.TrackOutcome reports a failure of the decrypting stream as soon as the stream is opened, before the cover step and the encoder start. In the source such a failure can surface later, during the 167-byte read or the copy into the encoder (src/download.rs:313-315). The track fails in both. When the cover step or the encoder start also fails, though, the source reports that error and the model reports the stream error. A cover file written beside the track before the late failure is not modelled either.
- The ffmpeg executable path is not modelled. It only names the process that `spawnEncoder` starts.

=== FILE: decimal.dfy ===
/**
 * Decimal rendering of integers as Rust's `Display` and `{:0width$}` formats
 * write them, together with a reading-back function that serves as their inverse.
 */
module Decimal {

  predicate IsDigit(c: char) {
    '0' <= c <= '9'
  }

  predicate AllDigits(s: string) {
    forall i :: 0 <= i < |s| ==> IsDigit(s[i])
  }

  function DigitChar(d: nat): (c: char)
    requires d < 10
    ensures IsDigit(c)
  {
    (48 + d) as char
  }

  function DigitValue(c: char): (d: nat)
    requires IsDigit(c)
    ensures d < 10 && DigitChar(d) == c
  {
    (c as int - 48) as nat
  }

  function Pow10(k: nat): (p: nat)
    ensures p >= 1
  {
    if k == 0 then 1 else 10 * Pow10(k - 1)
  }

  /** The digits of `n` in base ten, most significant first, without leading zeros. */
  function NatToDecimal(n: nat): (s: string)
    ensures |s| >= 1 && AllDigits(s)
    ensures s[0] == '0' ==> n == 0
    ensures n < Pow10(|s|)
    ensures |s| == 1 || Pow10(|s| - 1) <= n
    decreases n
  {
    if n < 10 then [DigitChar(n)]
    else
      var prefix := NatToDecimal(n / 10);
      assert n / 10 < Pow10(|prefix|);
      assert |prefix| == 1 || Pow10(|prefix| - 1) <= n / 10;
      prefix + [DigitChar(n % 10)]
  }

  /** A signed decimal: a leading `-` for negative values, as `{}` prints an `i32`. */
  function IntToDecimal(i: int): (s: string)
    ensures |s| >= 1
    ensures s[0] == '-' <==> i < 0
    ensures i < 0 ==> AllDigits(s[1..]) && |s| >= 2
    ensures i >= 0 ==> AllDigits(s)
    ensures s[if i < 0 then 1 else 0] == '0' ==> i == 0
  {
    if i < 0 then
      var digits := NatToDecimal(-i);
      assert ("-" + digits)[1..] == digits;
      "-" + digits
    else NatToDecimal(i)
  }

  /** The value of a string of decimal digits (zero for the empty string). */
  function ParseDecimal(s: string): nat
    requires AllDigits(s)
  {
    if s == [] then 0 else 10 * ParseDecimal(s[..|s| - 1]) + DigitValue(s[|s| - 1])
  }

  /** The value of a possibly signed decimal. */
  function ParseSigned(s: string): int
    requires |s| >= 1
    requires s[0] == '-' ==> AllDigits(s[1..])
    requires s[0] != '-' ==> AllDigits(s)
  {
    if s[0] == '-' then 0 - ParseDecimal(s[1..]) as int else ParseDecimal(s)
  }

  function Zeros(k: nat): (z: string)
    ensures |z| == k && forall i :: 0 <= i < k ==> z[i] == '0'
  {
    seq(k, _ => '0')
  }

  /**
   * `s` left-padded with `0` up to at least `width` characters; a longer `s`
   * is kept whole.
   */
  function ZeroPad(s: string, width: nat): (r: string)
    ensures |r| == if |s| >= width then |s| else width
    ensures r[|r| - |s|..] == s
    ensures forall i :: 0 <= i < |r| - |s| ==> r[i] == '0'
  {
    if |s| >= width then s else Zeros(width - |s|) + s
  }

  /** `{n:0width$}` for an unsigned `n`. */
  function PaddedNat(n: nat, width: nat): string {
    ZeroPad(NatToDecimal(n), width)
  }

  lemma {:induction false} ParseNatToDecimal(n: nat)
    ensures ParseDecimal(NatToDecimal(n)) == n
    decreases n
  {
    if n >= 10 {
      var prefix := NatToDecimal(n / 10);
      var s := prefix + [DigitChar(n % 10)];
      assert s[..|s| - 1] == prefix;
      ParseNatToDecimal(n / 10);
    }
  }

  lemma {:induction false} ParseAppend(a: string, b: string)
    requires AllDigits(a) && AllDigits(b)
    ensures AllDigits(a + b)
    ensures ParseDecimal(a + b) == ParseDecimal(a) * Pow10(|b|) + ParseDecimal(b)
    decreases |b|
  {
    DigitsAppend(a, b);
    if b == [] {
      assert a + b == a;
    } else {
      var b' := b[..|b| - 1];
      var ab := a + b;
      assert AllDigits(b');
      assert ab[..|ab| - 1] == a + b';
      assert ab[|ab| - 1] == b[|b| - 1];
      ParseAppend(a, b');
      var pa, pb, p, d := ParseDecimal(a), ParseDecimal(b'), Pow10(|b'|), DigitValue(b[|b| - 1]);
      assert ParseDecimal(ab) == 10 * ParseDecimal(a + b') + d;
      assert ParseDecimal(b) == 10 * pb + d;
      assert Pow10(|b|) == 10 * p;
      ShiftDigit(pa, p, pb, d);
    }
  }

  lemma DigitsAppend(a: string, b: string)
    requires AllDigits(a) && AllDigits(b)
    ensures AllDigits(a + b)
  {
    forall i | 0 <= i < |a + b|
      ensures IsDigit((a + b)[i])
    {
      if i >= |a| {
        assert (a + b)[i] == b[i - |a|];
      }
    }
  }

  /** Appending one digit to both parts: the left part's weight grows tenfold. */
  lemma ShiftDigit(x: nat, y: nat, z: nat, d: nat)
    ensures 10 * (x * y + z) + d == x * (10 * y) + (10 * z + d)
  {
    assert 10 * (x * y) == x * (10 * y);
  }

  lemma {:induction false} ParseZeros(k: nat)
    ensures ParseDecimal(Zeros(k)) == 0
    decreases k
  {
    if k > 0 {
      assert Zeros(k)[..k - 1] == Zeros(k - 1);
      ParseZeros(k - 1);
    }
  }

  /** Reading a signed decimal back yields the number that was printed. */
  lemma IntDecimalRoundTrip(i: int)
    ensures ParseSigned(IntToDecimal(i)) == i
  {
    if i < 0 {
      NegativeRoundTrip(-i);
    } else {
      ParseNatToDecimal(i);
    }
  }

  lemma NegativeRoundTrip(n: nat)
    requires n > 0
    ensures ParseSigned(IntToDecimal(-(n as int))) == -(n as int)
  {
    var s, d := IntToDecimal(-(n as int)), NatToDecimal(n);
    assert s == "-" + d;
    assert s[1..] == d;
    ParseNatToDecimal(n);
  }

  /**
   * Zero padding neither truncates nor changes the value: the padded number is
   * all digits, exactly max(width, digits of n) long, and reads back as `n`.
   */
  lemma PaddedNatMeaning(n: nat, width: nat)
    ensures AllDigits(PaddedNat(n, width))
    ensures |PaddedNat(n, width)| == if |NatToDecimal(n)| >= width then |NatToDecimal(n)| else width
    ensures ParseDecimal(PaddedNat(n, width)) == n
  {
    var s := NatToDecimal(n);
    ParseNatToDecimal(n);
    if |s| < width {
      var z := Zeros(width - |s|);
      assert PaddedNat(n, width) == z + s;
      assert AllDigits(z);
      ParseAppend(z, s);
      ParseZeros(width - |s|);
      assert ParseDecimal(z + s) == 0 * Pow10(|s|) + ParseDecimal(s);
    } else {
      assert PaddedNat(n, width) == s;
    }
  }

  /** Numbers with more digits are larger: the digit count is monotone in the value. */
  lemma {:induction false} DigitsMonotone(a: nat, b: nat)
    requires a <= b
    ensures |NatToDecimal(a)| <= |NatToDecimal(b)|
    decreases b
  {
    if a >= 10 {
      DigitsMonotone(a / 10, b / 10);
    }
  }
}

=== FILE: download.dfy ===
/**
 * The download orchestrator: configuration checks, the quality ladder, per-track
 * format selection, destination path and encoder argument assembly, the skip
 * rule, cover-art policy, and the batch loop that tallies each track's outcome.
 *
 * Everything the pipeline asks of the outside world (directories, the file
 * system probe, the audio key and stream, images, temporary files, the encoder
 * process) is a function of an `Environment` value, so every decision is a
 * pure function of its inputs and the answers it receives.
 */
module Download {
  import opened Wrappers
  import opened Decimal
  import opened Template

  type TrackId = nat
  type FileId = nat
  type ImageId = nat

  /** Audio encodings a track may offer; only the three Vorbis tiers are ever requested. */
  datatype AudioFileFormat = OggVorbis96 | OggVorbis160 | OggVorbis320 | OtherFormat(tag: nat)

  datatype Cover = Cover(id: ImageId, height: int)

  /** The track metadata the pipeline reads. */
  datatype Track = Track(
    id: TrackId,
    name: string,
    number: int,
    discNumber: int,
    languages: seq<string>,
    files: map<AudioFileFormat, FileId>,
    albumName: string,
    year: int,
    recordLabel: string,
    covers: seq<Cover>,
    artists: seq<string>)

  datatype EncodingProfile = EncodingProfile(quality: nat, coverArt: bool, extension: string, args: seq<string>)

  datatype Config = Config(
    output: string,
    artistsSeparator: string,
    defaultProfile: string,
    profiles: map<string, EncodingProfile>,
    maxFilenameLen: Option<nat>)

  /** The command-line options the orchestrator reads. */
  datatype Args = Args(
    output: Option<string>,
    skipExisting: bool,
    encodingProfile: Option<string>,
    externalCoverArt: Option<string>)

  datatype Error =
    | BadTemplate(cause: TemplateError)
    | ProfileNotFound(name: string)
    | InvalidQuality(quality: nat)
    | NoSuitableFile(track: TrackId)
    | StreamTooShort
    | EncoderExit(code: int)
    | EncoderSignalled

  datatype CreateOutcome = Created | AlreadyExists | CreateFailed(error: Error)

  datatype ExitStatus = Exited(code: int) | Signalled

  /** The answers of the outside world, one function per kind of request. */
  datatype Environment = Environment(
    prepareParent: string -> Result<(), Error>,                 // parent of the path, created recursively
    pathExists: string -> bool,                                     // whether the path exists
    openStream: (TrackId, FileId) -> Result<seq<bv8>, Error>,   // key, CDN, HTTP GET, decrypted bytes
    fetchImage: ImageId -> Result<seq<bv8>, Error>,
    stageCover: seq<bv8> -> Result<string, Error>,              // temporary file holding the bytes
    createCover: (string, string) -> CreateOutcome,             // exclusive create beside the path
    writeCover: (string, string, seq<bv8>) -> Result<(), Error>,
    spawnEncoder: seq<string> -> Result<(), Error>,
    runEncoder: (seq<string>, seq<bv8>) -> Result<ExitStatus, Error>)  // feed stdin, wait

  /** Everything fixed for a whole batch once configuration has been checked. */
  datatype Plan = Plan(
    pathTemplate: seq<Component>,
    profile: EncodingProfile,
    allowed: seq<AudioFileFormat>,
    argTemplates: seq<seq<Component>>,
    separator: string,
    maxFilenameLen: Option<nat>,
    skipExisting: bool,
    externalCoverArt: Option<string>)

  datatype Summary = Summary(errors: seq<(Error, TrackId)>, skipped: nat)

  /** The fixed head of every encoder command line: overwrite, no banner, errors only, input from stdin. */
  const EncoderPrefix: seq<string> := ["-y", "-hide_banner", "-loglevel", "error", "-i", "-"]

  /** Leading bytes of every decrypted stream that are not audio. */
  const GarbageLength: nat := 167

  // ---------------------------------------------------------------------------
  // Format selection

  /** The file of the earliest allowed format the track offers. */
  function FirstAvailable(files: map<AudioFileFormat, FileId>, allowed: seq<AudioFileFormat>): (r: Option<FileId>)
    ensures r.None? <==> forall k :: 0 <= k < |allowed| ==> allowed[k] !in files
    ensures r.Some? ==> exists k :: 0 <= k < |allowed| && allowed[k] in files && r.value == files[allowed[k]]
                                      && forall j :: 0 <= j < k ==> allowed[j] !in files
  {
    if allowed == [] then None
    else if allowed[0] in files then
      Some(files[allowed[0]])
    else
      var r := FirstAvailable(files, allowed[1..]);
      assert forall k :: 1 <= k < |allowed| ==> allowed[k] == allowed[1..][k - 1];
      if r.Some? then
        var k :| 0 <= k < |allowed[1..]| && allowed[1..][k] in files && r.value == files[allowed[1..][k]]
                 && forall j :: 0 <= j < k ==> allowed[1..][j] !in files;
        assert allowed[k + 1] in files && r.value == files[allowed[k + 1]];
        assert forall j :: 0 <= j < k + 1 ==> allowed[j] !in files by {
          forall j | 0 <= j < k + 1 ensures allowed[j] !in files {
            if j > 0 {
              assert allowed[j] == allowed[1..][j - 1];
            }
          }
        }
        r
      else
        r
  }

  /** Walks the allowed formats in order and returns at the first one the track has. */
  method SelectFile(files: map<AudioFileFormat, FileId>, allowed: seq<AudioFileFormat>) returns (r: Option<FileId>)
    ensures r == FirstAvailable(files, allowed)
  {
    for i := 0 to |allowed|
      invariant FirstAvailable(files, allowed) == FirstAvailable(files, allowed[i..])
    {
      if allowed[i] in files {
        return Some(files[allowed[i]]);
      }
      assert allowed[i..][1..] == allowed[i + 1..];
    }
    return None;
  }

  /** The bit rate a format stands for, zero for formats outside the ladder. */
  function Bitrate(f: AudioFileFormat): nat {
    match f
    case OggVorbis96 => 96
    case OggVorbis160 => 160
    case OggVorbis320 => 320
    case OtherFormat(_) => 0
  }

  const FullLadder: seq<AudioFileFormat> := [OggVorbis320, OggVorbis160, OggVorbis96]

  /**
   * The formats a quality setting accepts, best first: the requested tier and
   * every lower one. Any other quality is a configuration error.
   */
  function AllowedFormats(quality: nat): (r: Result<seq<AudioFileFormat>, Error>)
    ensures r.Ok? <==> quality == 320 || quality == 160 || quality == 96
    ensures r.Err? ==> r.error == InvalidQuality(quality)
    ensures r.Ok? ==> 1 <= |r.value| <= 3 && r.value == FullLadder[3 - |r.value|..]
    ensures r.Ok? ==> Bitrate(r.value[0]) == quality
    ensures r.Ok? ==> forall k :: 0 <= k < |FullLadder| ==> (FullLadder[k] in r.value <==> Bitrate(FullLadder[k]) <= quality)
  {
    match quality
    case 320 => Ok([OggVorbis320, OggVorbis160, OggVorbis96])
    case 160 => Ok([OggVorbis160, OggVorbis96])
    case 96 => Ok([OggVorbis96])
    case _ => Err(InvalidQuality(quality))
  }

  lemma {:induction false} FirstAvailableSuffix(files: map<AudioFileFormat, FileId>, allowed: seq<AudioFileFormat>, n: nat)
    requires n <= |allowed|
    requires FirstAvailable(files, allowed[n..]).Some?
    ensures FirstAvailable(files, allowed).Some?
  {
    var k :| 0 <= k < |allowed[n..]| && allowed[n..][k] in files;
    assert allowed[n + k] in files;
  }

  /**
   * Asking for a higher tier never loses a track: whatever a lower quality
   * setting would select, a higher one selects something too.
   */
  lemma LadderMonotone(files: map<AudioFileFormat, FileId>, low: nat, high: nat)
    requires AllowedFormats(low).Ok? && AllowedFormats(high).Ok? && low <= high
    requires FirstAvailable(files, AllowedFormats(low).value).Some?
    ensures FirstAvailable(files, AllowedFormats(high).value).Some?
  {
    // the lower setting's list is what remains of the higher one's after dropping its top tiers
    if high == 320 && low == 160 {
      FirstAvailableSuffix(files, [OggVorbis320, OggVorbis160, OggVorbis96], 1);
    } else if high == 320 && low == 96 {
      FirstAvailableSuffix(files, [OggVorbis320, OggVorbis160, OggVorbis96], 2);
    } else if high == 160 && low == 96 {
      FirstAvailableSuffix(files, [OggVorbis160, OggVorbis96], 1);
    }
  }

  /** At the top tier a track offering only the lowest tier still gets it; one offering none gets nothing. */
  lemma LadderFallback(files: map<AudioFileFormat, FileId>)
    requires OggVorbis320 !in files && OggVorbis160 !in files
    ensures OggVorbis96 in files ==> FirstAvailable(files, AllowedFormats(320).value) == Some(files[OggVorbis96])
    ensures OggVorbis96 !in files ==> FirstAvailable(files, AllowedFormats(320).value) == None
  {
    var ladder := AllowedFormats(320).value;
    assert ladder == [OggVorbis320, OggVorbis160, OggVorbis96];
    assert ladder[1..] == [OggVorbis160, OggVorbis96];
    assert ladder[1..][1..] == [OggVorbis96];
    assert [OggVorbis96][1..] == [];
    assert FirstAvailable(files, ladder) == FirstAvailable(files, [OggVorbis160, OggVorbis96]);
    assert FirstAvailable(files, [OggVorbis160, OggVorbis96]) == FirstAvailable(files, [OggVorbis96]);
  }

  // ---------------------------------------------------------------------------
  // Field set and destination path

  /** Names separated by `sep`: one separator between neighbours, none at either end. */
  function Join(names: seq<string>, sep: string): string {
    if names == [] then []
    else if |names| == 1 then names[0]
    else names[0] + sep + Join(names[1..], sep)
  }

  function TotalLength(names: seq<string>): nat {
    if names == [] then 0 else |names[0]| + TotalLength(names[1..])
  }

  lemma {:induction false} JoinSnoc(names: seq<string>, name: string, sep: string)
    requires names != []
    ensures Join(names + [name], sep) == Join(names, sep) + sep + name
    decreases |names|
  {
    if |names| == 1 {
      assert (names + [name])[1..] == [name];
    } else {
      assert (names + [name])[1..] == names[1..] + [name];
      JoinSnoc(names[1..], name, sep);
    }
  }

  /** The joined string holds every name and exactly one separator per gap. */
  lemma {:induction false} JoinLength(names: seq<string>, sep: string)
    requires names != []
    ensures |Join(names, sep)| == TotalLength(names) + (|names| - 1) * |sep|
    decreases |names|
  {
    if |names| > 1 {
      JoinLength(names[1..], sep);
    }
  }

  /**
   * Appends each artist name, and the separator after every name but the last.
   * With no artists the last index wraps around and the loop body never runs.
   */
  method JoinArtists(names: seq<string>, separator: string) returns (artists: string)
    ensures artists == Join(names, separator)
  {
    artists := [];
    var lastN := |names| - 1;
    for n := 0 to |names|
      invariant n == 0 ==> artists == []
      invariant 0 < n < |names| ==> artists == Join(names[..n], separator) + separator
      invariant n == |names| ==> artists == Join(names[..n], separator)
    {
      if n > 0 {
        JoinSnoc(names[..n], names[n], separator);
        assert names[..n + 1] == names[..n] + [names[n]];
      } else {
        assert names[..1] == [names[0]];
      }
      artists := artists + names[n];
      if n != lastN {
        artists := artists + separator;
      }
    }
    assert names[..|names|] == names;
  }

  /** The unsanitised field set of a track at a position in the batch. */
  function TrackFields(track: Track, separator: string, seqNumber: nat, seqDigits: nat): Fields {
    Fields(
      Join(track.artists, separator),
      track.name,
      track.albumName,
      seqNumber,
      seqDigits,
      track.number,
      track.discNumber,
      Join(track.languages, ", "),
      track.year,
      track.recordLabel)
  }

  /** `String::truncate`: cut to `maxLen` characters when longer, otherwise keep. */
  function Truncate(s: string, maxLen: nat): (r: string)
    ensures |r| == if |s| <= maxLen then |s| else maxLen
    ensures r == s[..|r|]
  {
    if maxLen < |s| then s[..maxLen] else s
  }

  /**
   * The rendered path, cut to the configured length if there is one, then `.`
   * and the extension.
   */
  function DestinationPath(rendered: string, maxLen: Option<nat>, extension: string): (p: string)
    ensures |p| >= |extension| + 1
    ensures var stem := p[..|p| - |extension| - 1];
              && |stem| <= |rendered| && stem == rendered[..|stem|]
              && (maxLen.None? ==> stem == rendered)
              && (maxLen.Some? ==> |stem| == if |rendered| <= maxLen.value then |rendered| else maxLen.value)
    ensures p[|p| - |extension| - 1] == '.' && p[|p| - |extension|..] == extension
    ensures maxLen.Some? ==> |p| <= maxLen.value + 1 + |extension|
  {
    var stem := if maxLen.Some? then Truncate(rendered, maxLen.value) else rendered;
    var p := stem + ['.'] + extension;
    assert p[..|p| - |extension| - 1] == stem;
    p
  }

  /** Where a track is written: the path template rendered against sanitised fields. */
  function TrackPath(track: Track, plan: Plan, seqNumber: nat, seqDigits: nat): string {
    var fields := TrackFields(track, plan.separator, seqNumber, seqDigits);
    DestinationPath(Render(plan.pathTemplate, fields.Sanitize()), plan.maxFilenameLen, plan.profile.extension)
  }

  /**
   * Field values never bring a reserved character into the file name part they
   * fill: only the path template's own literal text can.
   */
  lemma TrackPathClean(track: Track, plan: Plan, seqNumber: nat, seqDigits: nat)
    requires forall i :: 0 <= i < |plan.pathTemplate| && plan.pathTemplate[i].Literal? ==> Clean(plan.pathTemplate[i].text)
    requires Clean(plan.profile.extension)
    ensures Clean(TrackPath(track, plan, seqNumber, seqDigits))
  {
    var fields := TrackFields(track, plan.separator, seqNumber, seqDigits);
    var rendered := Render(plan.pathTemplate, fields.Sanitize());
    SanitizedRenderClean(plan.pathTemplate, fields);
    var p := TrackPath(track, plan, seqNumber, seqDigits);
    var ext := plan.profile.extension;
    var stem := p[..|p| - |ext| - 1];
    assert stem == rendered[..|stem|];
    CleanPrefix(rendered, |stem|);
    CleanConcat(stem, ['.']);
    CleanConcat(stem + ['.'], ext);
    assert p == stem + ['.'] + ext;
  }

  /**
   * The destination path has no more directory separators than the path
   * template's literals and the extension put there, and exactly that many
   * when no length limit cuts the rendered text.
   */
  lemma TrackPathReserved(track: Track, plan: Plan, seqNumber: nat, seqDigits: nat)
    ensures CountReserved(TrackPath(track, plan, seqNumber, seqDigits))
            <= LiteralReserved(plan.pathTemplate) + CountReserved(plan.profile.extension)
    ensures plan.maxFilenameLen.None? ==>
              CountReserved(TrackPath(track, plan, seqNumber, seqDigits))
              == LiteralReserved(plan.pathTemplate) + CountReserved(plan.profile.extension)
  {
    var fields := TrackFields(track, plan.separator, seqNumber, seqDigits);
    var rendered := Render(plan.pathTemplate, fields.Sanitize());
    SanitizedRenderReserved(plan.pathTemplate, fields);
    var p := TrackPath(track, plan, seqNumber, seqDigits);
    var ext := plan.profile.extension;
    var stem := p[..|p| - |ext| - 1];
    assert stem == rendered[..|stem|];
    CountReservedPrefix(rendered, |stem|);
    assert p == stem + ['.'] + ext;
    CountReservedConcat(stem, ['.']);
    CountReservedConcat(stem + ['.'], ext);
    assert CountReserved(['.']) == 0;
    if plan.maxFilenameLen.None? {
      assert stem == rendered;
    }
  }

  // ---------------------------------------------------------------------------
  // Cover art

  /** `max_by_key` on height: a highest cover, the last one when several tie. */
  function HighestCover(covers: seq<Cover>): (k: nat)
    requires covers != []
    ensures k < |covers|
    ensures forall j :: 0 <= j < |covers| ==> covers[j].height <= covers[k].height
    ensures forall j :: k < j < |covers| ==> covers[j].height < covers[k].height
  {
    if |covers| == 1 then 0
    else
      var k := HighestCover(covers[..|covers| - 1]);
      assert forall j :: 0 <= j < |covers| - 1 ==> covers[j] == covers[..|covers| - 1][j];
      if covers[k].height > covers[|covers| - 1].height then k else |covers| - 1
  }

  /**
   * The cover step: with embedding on, the highest cover is fetched and staged
   * as a temporary file whose path becomes an extra encoder input; otherwise,
   * with an external cover name, the cover is written beside the track unless
   * that file already exists.
   */
  function CoverInput(track: Track, plan: Plan, path: string, env: Environment): (r: Result<Option<string>, Error>)
    ensures r.Ok? && r.value.Some? ==> plan.profile.coverArt && track.covers != []
    ensures track.covers == [] ==> r == Ok(None)
  {
    if track.covers == [] then Ok(None)
    else
      var cover := track.covers[HighestCover(track.covers)];
      if plan.profile.coverArt then
        match env.fetchImage(cover.id)
        case Err(e) => Err(e)
        case Ok(data) =>
          match env.stageCover(data)
          case Err(e) => Err(e)
          case Ok(tempPath) => Ok(Some(tempPath))
      else if plan.externalCoverArt.Some? then
        match env.createCover(path, plan.externalCoverArt.value)
        case AlreadyExists => Ok(None)
        case CreateFailed(e) => Err(e)
        case Created =>
          match env.fetchImage(cover.id)
          case Err(e) => Err(e)
          case Ok(data) =>
            match env.writeCover(path, plan.externalCoverArt.value, data)
            case Err(e) => Err(e)
            case Ok(_) => Ok(None)
      else Ok(None)
  }

  /**
   * With embedding on, the tallest cover (the last of equal height) is
   * fetched and staged, and the staged file becomes the extra encoder input;
   * a failed fetch or staging fails the track with that error.
   */
  lemma CoverEmbedded(track: Track, plan: Plan, path: string, env: Environment)
    requires track.covers != [] && plan.profile.coverArt
    ensures var cover := track.covers[HighestCover(track.covers)];
            var r := CoverInput(track, plan, path, env);
            && (forall c :: c in track.covers ==> c.height <= cover.height)
            && (r.Ok? <==> env.fetchImage(cover.id).Ok? && env.stageCover(env.fetchImage(cover.id).value).Ok?)
            && (r.Ok? ==> r.value == Some(env.stageCover(env.fetchImage(cover.id).value).value))
            && (env.fetchImage(cover.id).Err? ==> r == Err(env.fetchImage(cover.id).error))
            && (env.fetchImage(cover.id).Ok? && env.stageCover(env.fetchImage(cover.id).value).Err? ==>
                  r == Err(env.stageCover(env.fetchImage(cover.id).value).error))
  {
    var k := HighestCover(track.covers);
    forall c | c in track.covers
      ensures c.height <= track.covers[k].height
    {
      var j :| 0 <= j < |track.covers| && track.covers[j] == c;
    }
  }

  /**
   * With embedding off and an external cover name, the cover file is created
   * beside the track: one that already exists is left alone, any other create
   * error fails the track, and the encoder never gets an extra input.
   */
  lemma CoverExternal(track: Track, plan: Plan, path: string, env: Environment)
    requires track.covers != [] && !plan.profile.coverArt && plan.externalCoverArt.Some?
    ensures var name, id := plan.externalCoverArt.value, track.covers[HighestCover(track.covers)].id;
            var created, r := env.createCover(path, name), CoverInput(track, plan, path, env);
            && (r.Ok? ==> r.value == None)
            && (created == AlreadyExists ==> r == Ok(None))
            && (created.CreateFailed? ==> r == Err(created.error))
            && (created == Created ==>
                  (r.Ok? <==> env.fetchImage(id).Ok? && env.writeCover(path, name, env.fetchImage(id).value).Ok?))
            && (created == Created && env.fetchImage(id).Err? ==> r == Err(env.fetchImage(id).error))
            && (created == Created && env.fetchImage(id).Ok? && env.writeCover(path, name, env.fetchImage(id).value).Err? ==>
                  r == Err(env.writeCover(path, name, env.fetchImage(id).value).error))
  {
  }

  /** Without embedding and without an external cover name there is no cover step. */
  lemma CoverNone(track: Track, plan: Plan, path: string, env: Environment)
    requires !plan.profile.coverArt && plan.externalCoverArt.None?
    ensures CoverInput(track, plan, path, env) == Ok(None)
  {
  }

  /**
   * The cover-art step: fetches the highest cover and either stages it as an
   * extra encoder input or writes it beside the track, and extends the
   * encoder arguments accordingly.
   */
  method AddCover(ffargs: seq<string>, track: Track, plan: Plan, path: string, env: Environment)
    returns (r: Result<seq<string>, Error>)
    ensures CoverInput(track, plan, path, env).Err? ==> r == Err(CoverInput(track, plan, path, env).error)
    ensures CoverInput(track, plan, path, env).Ok? ==> r == Ok(ffargs + CoverArgs(CoverInput(track, plan, path, env).value))
  {
    var out := ffargs;
    ghost var cover: Option<string> := None;
    assert ffargs + CoverArgs(cover) == ffargs;
    if track.covers != [] {
      var coverId := track.covers[HighestCover(track.covers)].id;
      if plan.profile.coverArt {
        var data := env.fetchImage(coverId);
        if data.Err? {
          return Err(data.error);
        }
        var staged := env.stageCover(data.value);
        if staged.Err? {
          return Err(staged.error);
        }
        out := out + ["-i", staged.value];
        cover := Some(staged.value);
      } else if plan.externalCoverArt.Some? {
        var created := env.createCover(path, plan.externalCoverArt.value);
        match created {
          case Created =>
            var data := env.fetchImage(coverId);
            if data.Err? {
              return Err(data.error);
            }
            var written := env.writeCover(path, plan.externalCoverArt.value, data.value);
            if written.Err? {
              return Err(written.error);
            }
          case AlreadyExists =>
          case CreateFailed(e) =>
            return Err(e);
        }
      }
    }
    assert CoverInput(track, plan, path, env) == Ok(cover);
    assert out == ffargs + CoverArgs(cover);
    return Ok(out);
  }

  // ---------------------------------------------------------------------------
  // Encoder arguments and execution

  function RenderAll(templates: seq<seq<Component>>, fields: Fields): seq<string> {
    seq(|templates|, i requires 0 <= i < |templates| => Render(templates[i], fields))
  }

  function CoverArgs(cover: Option<string>): seq<string> {
    if cover.Some? then ["-i", cover.value] else []
  }

  /**
   * The encoder command line: the fixed prefix, then the staged cover as a
   * second input if there is one, then each profile argument rendered in order,
   * and the destination path last.
   */
  function EncoderArgs(cover: Option<string>, templates: seq<seq<Component>>, fields: Fields, path: string): (args: seq<string>)
    ensures |args| == |EncoderPrefix| + |CoverArgs(cover)| + |templates| + 1
    ensures args[..|EncoderPrefix|] == EncoderPrefix
    ensures cover.Some? ==> args[6] == "-i" && args[7] == cover.value
    ensures forall i :: 0 <= i < |templates| ==> args[|EncoderPrefix| + |CoverArgs(cover)| + i] == Render(templates[i], fields)
    ensures args[|args| - 1] == path
  {
    EncoderPrefix + CoverArgs(cover) + RenderAll(templates, fields) + [path]
  }

  /** Renders each profile argument and appends it. */
  method AppendRendered(ffargs: seq<string>, templates: seq<seq<Component>>, fields: Fields) returns (out: seq<string>)
    ensures out == ffargs + RenderAll(templates, fields)
  {
    out := ffargs;
    for i := 0 to |templates|
      invariant out == ffargs + RenderAll(templates[..i], fields)
    {
      var arg := Resolve(templates[i], fields);
      assert RenderAll(templates[..i + 1], fields) == RenderAll(templates[..i], fields) + [arg];
      out := out + [arg];
    }
    assert templates[..|templates|] == templates;
  }

  /** Reads and discards the leading non-audio bytes; a shorter stream is an error. */
  function DropGarbage(stream: seq<bv8>): (r: Result<seq<bv8>, Error>)
    ensures r.Err? <==> |stream| < GarbageLength
    ensures r.Err? ==> r.error == StreamTooShort
    ensures r.Ok? ==> |r.value| == |stream| - GarbageLength && stream == stream[..GarbageLength] + r.value
  {
    if |stream| < GarbageLength then Err(StreamTooShort) else Ok(stream[GarbageLength..])
  }

  /** A zero exit is success; any other code or a signal is a failure carrying that detail. */
  function ExitOutcome(status: ExitStatus): (r: Result<bool, Error>)
    ensures r == Ok(true) <==> status == Exited(0)
    ensures r.Err? <==> status != Exited(0)
    ensures status == Signalled ==> r == Err(EncoderSignalled)
    ensures status.Exited? && status.code != 0 ==> r == Err(EncoderExit(status.code))
  {
    match status
    case Exited(0) => Ok(true)
    case Exited(code) => Err(EncoderExit(code))
    case Signalled => Err(EncoderSignalled)
  }

  /** Start the encoder, skip the garbage prefix, stream the rest in, wait. */
  function EncodeOutcome(env: Environment, args: seq<string>, stream: seq<bv8>): (r: Result<bool, Error>)
    ensures r.Ok? ==> r.value
    ensures |stream| < GarbageLength && env.spawnEncoder(args).Ok? ==> r == Err(StreamTooShort)
  {
    match env.spawnEncoder(args)
    case Err(e) => Err(e)
    case Ok(_) =>
      match DropGarbage(stream)
      case Err(e) => Err(e)
      case Ok(audio) =>
        match env.runEncoder(args, audio)
        case Err(e) => Err(e)
        case Ok(status) => ExitOutcome(status)
  }

  /**
   * An encode succeeds exactly when the encoder starts, the stream holds the
   * 167 junk bytes, and the encoder, fed everything after them, exits with 0.
   */
  lemma EncodeSucceeds(env: Environment, args: seq<string>, stream: seq<bv8>)
    ensures EncodeOutcome(env, args, stream) == Ok(true) <==>
              && env.spawnEncoder(args).Ok?
              && |stream| >= GarbageLength
              && env.runEncoder(args, stream[GarbageLength..]) == Ok(Exited(0))
    ensures env.spawnEncoder(args).Err? ==> EncodeOutcome(env, args, stream) == Err(env.spawnEncoder(args).error)
    ensures forall code :: code != 0 && env.spawnEncoder(args).Ok? && |stream| >= GarbageLength
                           && env.runEncoder(args, stream[GarbageLength..]) == Ok(Exited(code))
                           ==> EncodeOutcome(env, args, stream) == Err(EncoderExit(code))
  {
  }

  // ---------------------------------------------------------------------------
  // One track

  /**
   * The outcome of one track: `Ok(true)` downloaded, `Ok(false)` skipped,
   * `Err` failed.
   */
  function TrackOutcome(track: Track, plan: Plan, seqNumber: nat, seqDigits: nat, env: Environment): Result<bool, Error> {
    var fields := TrackFields(track, plan.separator, seqNumber, seqDigits);
    var path := TrackPath(track, plan, seqNumber, seqDigits);
    match env.prepareParent(path)
    case Err(e) => Err(e)
    case Ok(_) =>
      if plan.skipExisting && env.pathExists(path) then Ok(false)
      else Transfer(track, plan, fields, path, env)
  }

  /** Everything after the skip check: file selection, stream, cover art, encoding. */
  function Transfer(track: Track, plan: Plan, fields: Fields, path: string, env: Environment): (r: Result<bool, Error>)
    ensures r.Ok? ==> r.value
  {
    match FirstAvailable(track.files, plan.allowed)
    case None => Err(NoSuitableFile(track.id))
    case Some(file) =>
      match env.openStream(track.id, file)
      case Err(e) => Err(e)
      case Ok(stream) =>
        match CoverInput(track, plan, path, env)
        case Err(e) => Err(e)
        case Ok(cover) => EncodeOutcome(env, EncoderArgs(cover, plan.argTemplates, fields, path), stream)
  }

  /**
   * A track is downloaded exactly when its directory is in place, it is not
   * skipped, an allowed file exists and its stream opens, the cover step
   * succeeds, and the encoder run on that stream succeeds.
   */
  lemma TrackSucceeds(track: Track, plan: Plan, seqNumber: nat, seqDigits: nat, env: Environment)
    ensures var path := TrackPath(track, plan, seqNumber, seqDigits);
            var fields := TrackFields(track, plan.separator, seqNumber, seqDigits);
            var file := FirstAvailable(track.files, plan.allowed);
            var cover := CoverInput(track, plan, path, env);
            TrackOutcome(track, plan, seqNumber, seqDigits, env) == Ok(true) <==>
              && env.prepareParent(path).Ok?
              && !(plan.skipExisting && env.pathExists(path))
              && file.Some?
              && env.openStream(track.id, file.value).Ok?
              && cover.Ok?
              && EncodeOutcome(env, EncoderArgs(cover.value, plan.argTemplates, fields, path),
                               env.openStream(track.id, file.value).value) == Ok(true)
  {
  }

  /**
   * A track that fails reports the first failing step's own error: the
   * directory, then a missing allowed format, then the stream, then the cover
   * step.
   */
  lemma TrackFails(track: Track, plan: Plan, seqNumber: nat, seqDigits: nat, env: Environment)
    ensures var path := TrackPath(track, plan, seqNumber, seqDigits);
            var r := TrackOutcome(track, plan, seqNumber, seqDigits, env);
            var go := env.prepareParent(path).Ok? && !(plan.skipExisting && env.pathExists(path));
            var file := FirstAvailable(track.files, plan.allowed);
            && (env.prepareParent(path).Err? ==> r == Err(env.prepareParent(path).error))
            && (go && file.None? ==> r == Err(NoSuitableFile(track.id)))
            && (go && file.Some? && env.openStream(track.id, file.value).Err? ==>
                  r == Err(env.openStream(track.id, file.value).error))
            && (go && file.Some? && env.openStream(track.id, file.value).Ok?
                && CoverInput(track, plan, path, env).Err? ==>
                  r == Err(CoverInput(track, plan, path, env).error))
  {
  }

  /**
   * A track is skipped exactly when its directory is in place, the skip policy
   * is on and the destination exists; nothing succeeds without its directory.
   */
  lemma SkipExactly(track: Track, plan: Plan, seqNumber: nat, seqDigits: nat, env: Environment)
    ensures var path := TrackPath(track, plan, seqNumber, seqDigits);
            var r := TrackOutcome(track, plan, seqNumber, seqDigits, env);
              && (r == Ok(false) <==> env.prepareParent(path).Ok? && plan.skipExisting && env.pathExists(path))
              && (r.Ok? ==> env.prepareParent(path).Ok?)
  {
  }

  /**
   * Skipping is decided before any network or encoder request and before file
   * selection: the outcome is `Ok(false)` whatever those requests would answer
   * and whatever formats the track has.
   */
  lemma SkipBeforeNetwork(
    track: Track, plan: Plan, seqNumber: nat, seqDigits: nat, env: Environment,
    files: map<AudioFileFormat, FileId>,
    openStream: (TrackId, FileId) -> Result<seq<bv8>, Error>,
    fetchImage: ImageId -> Result<seq<bv8>, Error>,
    stageCover: seq<bv8> -> Result<string, Error>,
    createCover: (string, string) -> CreateOutcome,
    writeCover: (string, string, seq<bv8>) -> Result<(), Error>,
    spawnEncoder: seq<string> -> Result<(), Error>,
    runEncoder: (seq<string>, seq<bv8>) -> Result<ExitStatus, Error>)
    requires plan.skipExisting
    requires env.prepareParent(TrackPath(track, plan, seqNumber, seqDigits)).Ok?
    requires env.pathExists(TrackPath(track, plan, seqNumber, seqDigits))
    ensures
      var offline := env.(openStream := openStream, fetchImage := fetchImage, stageCover := stageCover,
                          createCover := createCover, writeCover := writeCover,
                          spawnEncoder := spawnEncoder, runEncoder := runEncoder);
      TrackOutcome(track.(files := files), plan, seqNumber, seqDigits, offline) == Ok(false)
  {
    assert TrackPath(track.(files := files), plan, seqNumber, seqDigits) == TrackPath(track, plan, seqNumber, seqDigits);
  }

  /** Without the skip policy an existing destination makes no difference: it is overwritten. */
  lemma NoSkipIgnoresExisting(track: Track, plan: Plan, seqNumber: nat, seqDigits: nat, env: Environment, pathExists: string -> bool)
    requires !plan.skipExisting
    ensures TrackOutcome(track, plan, seqNumber, seqDigits, env.(pathExists := pathExists))
         == TrackOutcome(track, plan, seqNumber, seqDigits, env)
  {
    TransferIgnoresExisting(track, plan, TrackFields(track, plan.separator, seqNumber, seqDigits),
                            TrackPath(track, plan, seqNumber, seqDigits), env, pathExists);
  }

  lemma TransferIgnoresExisting(track: Track, plan: Plan, fields: Fields, path: string, env: Environment, pathExists: string -> bool)
    ensures Transfer(track, plan, fields, path, env.(pathExists := pathExists)) == Transfer(track, plan, fields, path, env)
  {
    var other := env.(pathExists := pathExists);
    assert CoverInput(track, plan, path, other) == CoverInput(track, plan, path, env);
  }

  /**
   * The pipeline for one track, step by step: path, parent directory, skip
   * check, file selection, stream, cover art, encoder arguments, encoding.
   */
  method DownloadTrack(track: Track, plan: Plan, seqNumber: nat, seqDigits: nat, env: Environment)
    returns (r: Result<bool, Error>)
    ensures r == TrackOutcome(track, plan, seqNumber, seqDigits, env)
  {
    var artists := JoinArtists(track.artists, plan.separator);
    var fields := Fields(
      artists, track.name, track.albumName, seqNumber, seqDigits,
      track.number, track.discNumber, Join(track.languages, ", "), track.year, track.recordLabel);
    assert fields == TrackFields(track, plan.separator, seqNumber, seqDigits);

    var pathString := Resolve(plan.pathTemplate, fields.Sanitize());
    if plan.maxFilenameLen.Some? {
      pathString := Truncate(pathString, plan.maxFilenameLen.value);
    }
    pathString := pathString + ['.'];
    pathString := pathString + plan.profile.extension;
    assert pathString == TrackPath(track, plan, seqNumber, seqDigits);

    var prepared := env.prepareParent(pathString);
    if prepared.Err? {
      return Err(prepared.error);
    }
    if plan.skipExisting && env.pathExists(pathString) {
      return Ok(false);
    }

    var file := SelectFile(track.files, plan.allowed);
    if file.None? {
      return Err(NoSuitableFile(track.id));
    }
    var stream := env.openStream(track.id, file.value);
    if stream.Err? {
      return Err(stream.error);
    }

    var withCover := AddCover(EncoderPrefix, track, plan, pathString, env);
    if withCover.Err? {
      return Err(withCover.error);
    }
    ghost var cover := CoverInput(track, plan, pathString, env).value;
    var ffargs := withCover.value;

    ffargs := AppendRendered(ffargs, plan.argTemplates, fields);
    ffargs := ffargs + [pathString];
    assert ffargs == EncoderArgs(cover, plan.argTemplates, fields, pathString);

    var spawned := env.spawnEncoder(ffargs);
    if spawned.Err? {
      return Err(spawned.error);
    }
    var audio := DropGarbage(stream.value);
    if audio.Err? {
      return Err(audio.error);
    }
    var status := env.runEncoder(ffargs, audio.value);
    if status.Err? {
      return Err(status.error);
    }
    r := ExitOutcome(status.value);
  }

  // ---------------------------------------------------------------------------
  // The batch

  /** Width of the zero-padded sequence number: the digit count of the track count. */
  function SeqMaxDigits(trackCount: nat): (d: nat)
    ensures d >= 1
    ensures trackCount < Pow10(d)
    ensures d == 1 || Pow10(d - 1) <= trackCount
  {
    |NatToDecimal(trackCount)|
  }

  /** Compiles each profile argument in order; the first bad one is the error. */
  function CompileAll(args: seq<string>): (r: Result<seq<seq<Component>>, Error>)
    ensures r.Ok? <==> forall i :: 0 <= i < |args| ==> WellFormed(args[i])
    ensures r.Ok? ==> |r.value| == |args| && forall i :: 0 <= i < |args| ==> Compiled(args[i]) == Ok(r.value[i])
    ensures r.Err? ==> exists k :: 0 <= k < |args| && !WellFormed(args[k]) && r.error == BadTemplate(InvalidTemplate(args[k]))
                                   && forall j :: 0 <= j < k ==> WellFormed(args[j])
    decreases |args|
  {
    if args == [] then Ok([])
    else
      match Compiled(args[0])
      case Err(e) => Err(BadTemplate(e))
      case Ok(t) =>
        match CompileAll(args[1..])
        case Err(e) =>
          var k :| 0 <= k < |args[1..]| && !WellFormed(args[1..][k]) && e == BadTemplate(InvalidTemplate(args[1..][k]))
                   && forall j :: 0 <= j < k ==> WellFormed(args[1..][j]);
          FirstBadShift(args, k);
          Err(e)
        case Ok(ts) =>
          CompiledCons(args, t, ts);
          Ok([t] + ts)
  }

  lemma CompiledCons(args: seq<string>, t: seq<Component>, ts: seq<seq<Component>>)
    requires |args| > 0 && Compiled(args[0]) == Ok(t) && |ts| == |args| - 1
    requires forall i :: 0 <= i < |args| - 1 ==> Compiled(args[1..][i]) == Ok(ts[i])
    ensures forall i :: 0 <= i < |args| ==> Compiled(args[i]) == Ok(([t] + ts)[i])
  {
    forall i | 0 <= i < |args|
      ensures Compiled(args[i]) == Ok(([t] + ts)[i])
    {
      if i > 0 {
        assert args[i] == args[1..][i - 1] && ([t] + ts)[i] == ts[i - 1];
      }
    }
  }

  lemma FirstBadShift(args: seq<string>, k: nat)
    requires |args| > 0 && WellFormed(args[0]) && k < |args| - 1
    requires forall j :: 0 <= j < k ==> WellFormed(args[1..][j])
    ensures args[1..][k] == args[k + 1]
    ensures forall j :: 0 <= j < k + 1 ==> WellFormed(args[j])
  {
    forall j | 0 <= j < k + 1
      ensures WellFormed(args[j])
    {
      if j > 0 {
        assert args[j] == args[1..][j - 1];
      }
    }
  }

  /** Compiles the profile arguments one by one, stopping at the first that is not a valid template. */
  method CompileProfileArgs(args: seq<string>) returns (r: Result<seq<seq<Component>>, Error>)
    ensures r == CompileAll(args)
  {
    var profileFfargs: seq<seq<Component>> := [];
    for i := 0 to |args|
      invariant |profileFfargs| == i
      invariant forall j :: 0 <= j < i ==> WellFormed(args[j]) && Compiled(args[j]) == Ok(profileFfargs[j])
    {
      var t := Compile(args[i]);
      if t.Err? {
        var k :| 0 <= k < |args| && !WellFormed(args[k]) && CompileAll(args).error == BadTemplate(InvalidTemplate(args[k]))
                 && forall j :: 0 <= j < k ==> WellFormed(args[j]);
        assert k == i;
        return Err(BadTemplate(t.error));
      }
      profileFfargs := profileFfargs + [t.value];
    }
    var all := CompileAll(args).value;
    assert forall j :: 0 <= j < |args| ==> all[j] == Compiled(args[j]).value == profileFfargs[j];
    assert all == profileFfargs;
    return Ok(profileFfargs);
  }

  /** The checks made before any track metadata is requested, in the order they are made. */
  function Setup(cfg: Config, cli: Args): (r: Result<Plan, Error>)
    ensures r.Ok? ==> Compiled(cli.output.GetOr(cfg.output)) == Ok(r.value.pathTemplate)
    ensures r.Ok? ==> var name := cli.encodingProfile.GetOr(cfg.defaultProfile);
                      name in cfg.profiles && r.value.profile == cfg.profiles[name]
                      && AllowedFormats(r.value.profile.quality) == Ok(r.value.allowed)
                      && CompileAll(r.value.profile.args) == Ok(r.value.argTemplates)
    ensures r.Ok? ==> r.value.skipExisting == cli.skipExisting && r.value.separator == cfg.artistsSeparator
    ensures r.Ok? ==> r.value.maxFilenameLen == cfg.maxFilenameLen && r.value.externalCoverArt == cli.externalCoverArt
  {
    match Compiled(cli.output.GetOr(cfg.output))
    case Err(e) => Err(BadTemplate(e))
    case Ok(pathTemplate) =>
      var name := cli.encodingProfile.GetOr(cfg.defaultProfile);
      if name !in cfg.profiles then Err(ProfileNotFound(name))
      else
        var profile := cfg.profiles[name];
        match AllowedFormats(profile.quality)
        case Err(e) => Err(e)
        case Ok(allowed) =>
          match CompileAll(profile.args)
          case Err(e) => Err(e)
          case Ok(argTemplates) =>
            Ok(Plan(pathTemplate, profile, allowed, argTemplates, cfg.artistsSeparator,
                    cfg.maxFilenameLen, cli.skipExisting, cli.externalCoverArt))
  }

  /**
   * The run is set up exactly when its four checks pass, and a failing run
   * reports the first failing check in order: the path template, the profile
   * name, the quality (and then the first bad profile argument, in
   * SetupBadArgument).
   */
  lemma SetupDecides(cfg: Config, cli: Args)
    ensures var output, name := cli.output.GetOr(cfg.output), cli.encodingProfile.GetOr(cfg.defaultProfile);
            Setup(cfg, cli).Ok? <==>
              && WellFormed(output)
              && name in cfg.profiles
              && cfg.profiles[name].quality in {320, 160, 96}
              && forall i :: 0 <= i < |cfg.profiles[name].args| ==> WellFormed(cfg.profiles[name].args[i])
    ensures var output := cli.output.GetOr(cfg.output);
            !WellFormed(output) ==> Setup(cfg, cli) == Err(BadTemplate(InvalidTemplate(output)))
    ensures var output, name := cli.output.GetOr(cfg.output), cli.encodingProfile.GetOr(cfg.defaultProfile);
            WellFormed(output) && name !in cfg.profiles ==> Setup(cfg, cli) == Err(ProfileNotFound(name))
    ensures var output, name := cli.output.GetOr(cfg.output), cli.encodingProfile.GetOr(cfg.defaultProfile);
            WellFormed(output) && name in cfg.profiles && cfg.profiles[name].quality !in {320, 160, 96} ==>
              Setup(cfg, cli) == Err(InvalidQuality(cfg.profiles[name].quality))
  {
    var output, name := cli.output.GetOr(cfg.output), cli.encodingProfile.GetOr(cfg.defaultProfile);
    if WellFormed(output) && name in cfg.profiles {
      var q := cfg.profiles[name].quality;
      assert AllowedFormats(q).Ok? <==> q in {320, 160, 96};
    }
  }

  /** With the first three checks passed, the first ill-formed profile argument is the one reported. */
  lemma SetupBadArgument(cfg: Config, cli: Args, k: nat)
    requires WellFormed(cli.output.GetOr(cfg.output))
    requires cli.encodingProfile.GetOr(cfg.defaultProfile) in cfg.profiles
    requires cfg.profiles[cli.encodingProfile.GetOr(cfg.defaultProfile)].quality in {320, 160, 96}
    requires var args := cfg.profiles[cli.encodingProfile.GetOr(cfg.defaultProfile)].args;
             k < |args| && !WellFormed(args[k]) && forall j :: 0 <= j < k ==> WellFormed(args[j])
    ensures Setup(cfg, cli) == Err(BadTemplate(InvalidTemplate(cfg.profiles[cli.encodingProfile.GetOr(cfg.defaultProfile)].args[k])))
  {
    var args := cfg.profiles[cli.encodingProfile.GetOr(cfg.defaultProfile)].args;
    FirstBadArgument(args, k);
  }

  lemma FirstBadArgument(args: seq<string>, k: nat)
    requires k < |args| && !WellFormed(args[k]) && forall j :: 0 <= j < k ==> WellFormed(args[j])
    ensures CompileAll(args) == Err(BadTemplate(InvalidTemplate(args[k])))
  {
    var e := CompileAll(args);
    var k' :| 0 <= k' < |args| && !WellFormed(args[k']) && e.error == BadTemplate(InvalidTemplate(args[k']))
              && forall j :: 0 <= j < k' ==> WellFormed(args[j]);
  }

  /** Every track's outcome, in order, the i-th at sequence number i + 1. */
  function Outcomes(tracks: seq<Track>, plan: Plan, env: Environment): (os: seq<Result<bool, Error>>)
    ensures |os| == |tracks|
  {
    NumberedOutcomes(tracks, plan, SeqMaxDigits(|tracks|), env)
  }

  /** Every track's outcome at a given sequence-number width. */
  function NumberedOutcomes(tracks: seq<Track>, plan: Plan, seqDigits: nat, env: Environment): (os: seq<Result<bool, Error>>)
    ensures |os| == |tracks|
  {
    seq(|tracks|, k requires 0 <= k < |tracks| => TrackOutcome(tracks[k], plan, k + 1, seqDigits, env))
  }

  /** The outcomes of the first `n` tracks. */
  function OutcomesUpTo(tracks: seq<Track>, plan: Plan, seqDigits: nat, env: Environment, n: nat): (os: seq<Result<bool, Error>>)
    requires n <= |tracks|
    ensures |os| == n
  {
    NumberedOutcomes(tracks, plan, seqDigits, env)[..n]
  }

  /** The failed tracks' errors with their ids, in track order. */
  function Failures(tracks: seq<Track>, os: seq<Result<bool, Error>>): seq<(Error, TrackId)>
    requires |os| <= |tracks|
  {
    if os == [] then []
    else
      var n := |os| - 1;
      Failures(tracks, os[..n]) + (if os[n].Err? then [(os[n].error, tracks[n].id)] else [])
  }

  function Skipped(os: seq<Result<bool, Error>>): nat {
    if os == [] then 0 else Skipped(os[..|os| - 1]) + (if os[|os| - 1] == Ok(false) then 1 else 0)
  }

  function Succeeded(os: seq<Result<bool, Error>>): nat {
    if os == [] then 0 else Succeeded(os[..|os| - 1]) + (if os[|os| - 1] == Ok(true) then 1 else 0)
  }

  /** What a run reports: a configuration or resolution error, or the tally of every track. */
  function DownloadSpec(cfg: Config, cli: Args, resolved: Result<seq<Track>, Error>, env: Environment): Result<Summary, Error>
  {
    match Setup(cfg, cli)
    case Err(e) => Err(e)
    case Ok(plan) =>
      match resolved
      case Err(e) => Err(e)
      case Ok(tracks) =>
        var os := Outcomes(tracks, plan, env);
        Ok(Summary(Failures(tracks, os), Skipped(os)))
  }

  /** Every outcome is exactly one of failure, skip and success. */
  lemma {:induction false} TallyPartition(tracks: seq<Track>, os: seq<Result<bool, Error>>)
    requires |os| <= |tracks|
    ensures |Failures(tracks, os)| + Skipped(os) + Succeeded(os) == |os|
    decreases |os|
  {
    if os != [] {
      var n := |os| - 1;
      TallyPartition(tracks, os[..n]);
      var last := if os[n].Err? then [(os[n].error, tracks[n].id)] else [];
      assert Failures(tracks, os) == Failures(tracks, os[..n]) + last;
      assert Skipped(os) == Skipped(os[..n]) + (if os[n] == Ok(false) then 1 else 0);
      assert Succeeded(os) == Succeeded(os[..n]) + (if os[n] == Ok(true) then 1 else 0);
      if os[n].Ok? {
        if os[n].value {
          assert os[n] == Ok(true);
        } else {
          assert os[n] == Ok(false);
        }
      }
    }
  }

  /** A failed track is reported with its own id and error; a failure never hides a later track. */
  lemma {:induction false} FailureRecorded(tracks: seq<Track>, os: seq<Result<bool, Error>>, k: nat)
    requires |os| <= |tracks| && k < |os| && os[k].Err?
    ensures (os[k].error, tracks[k].id) in Failures(tracks, os)
    decreases |os|
  {
    var n := |os| - 1;
    if k < n {
      assert os[..n][k] == os[k];
      FailureRecorded(tracks, os[..n], k);
    }
  }

  /** Only failed tracks are reported. */
  lemma {:induction false} FailuresAreFailed(tracks: seq<Track>, os: seq<Result<bool, Error>>, e: Error, id: TrackId)
    requires |os| <= |tracks|
    requires (e, id) in Failures(tracks, os)
    ensures exists k :: 0 <= k < |os| && os[k] == Err(e) && tracks[k].id == id
    decreases |os|
  {
    var n := |os| - 1;
    if (e, id) in Failures(tracks, os[..n]) {
      FailuresAreFailed(tracks, os[..n], e, id);
      var k :| 0 <= k < n && os[..n][k] == Err(e) && tracks[k].id == id;
      assert os[k] == Err(e) && tracks[k].id == id;
    } else {
      assert os[n] == Err(e) && tracks[n].id == id;
    }
  }

  /**
   * In a batch of `n` tracks, track i gets sequence number i + 1, which
   * renders as exactly as many zero-padded digits as `n` has and reads back as i + 1.
   */
  lemma BatchSequenceNumber(tracks: seq<Track>, plan: Plan, i: nat)
    requires i < |tracks|
    ensures var f := TrackFields(tracks[i], plan.separator, i + 1, SeqMaxDigits(|tracks|));
            && 1 <= f.seqNumber <= |tracks|
            && |RenderComponent(Seq, f)| == SeqMaxDigits(|tracks|)
            && ParseDecimal(RenderComponent(Seq, f)) == i + 1
  {
    var f := TrackFields(tracks[i], plan.separator, i + 1, SeqMaxDigits(|tracks|));
    SeqFieldWidth(f, |tracks|);
  }

  /** Configuration errors are reported before resolution and before any track is touched. */
  lemma ConfigErrorsFirst(cfg: Config, cli: Args, resolved: Result<seq<Track>, Error>, env: Environment)
    requires Setup(cfg, cli).Err?
    ensures DownloadSpec(cfg, cli, resolved, env) == Err(Setup(cfg, cli).error)
  {
  }

  lemma TallyStep(tracks: seq<Track>, os: seq<Result<bool, Error>>, o: Result<bool, Error>, i: nat)
    requires i < |tracks| && |os| == i
    ensures Failures(tracks, os + [o]) == Failures(tracks, os) + (if o.Err? then [(o.error, tracks[i].id)] else [])
    ensures Skipped(os + [o]) == Skipped(os) + (if o == Ok(false) then 1 else 0)
  {
    assert (os + [o])[..i] == os;
  }

  lemma OutcomesUpToNext(tracks: seq<Track>, plan: Plan, seqDigits: nat, env: Environment, i: nat, o: Result<bool, Error>)
    requires i < |tracks|
    requires o == TrackOutcome(tracks[i], plan, i + 1, seqDigits, env)
    ensures OutcomesUpTo(tracks, plan, seqDigits, env, i + 1) == OutcomesUpTo(tracks, plan, seqDigits, env, i) + [o]
  {
    var all := NumberedOutcomes(tracks, plan, seqDigits, env);
    assert all[i] == o;
    assert all[..i + 1] == all[..i] + [all[i]];
  }

  lemma OutcomesUpToEnds(tracks: seq<Track>, plan: Plan, env: Environment)
    ensures OutcomesUpTo(tracks, plan, SeqMaxDigits(|tracks|), env, 0) == []
    ensures OutcomesUpTo(tracks, plan, SeqMaxDigits(|tracks|), env, |tracks|) == Outcomes(tracks, plan, env)
  {
    var all := NumberedOutcomes(tracks, plan, SeqMaxDigits(|tracks|), env);
    assert all[..|tracks|] == all;
  }

  /** The outcome recorded for track i is that track's own, at sequence number i + 1. */
  lemma OutcomeAt(tracks: seq<Track>, plan: Plan, env: Environment, i: nat)
    requires i < |tracks|
    ensures Outcomes(tracks, plan, env)[i] == TrackOutcome(tracks[i], plan, i + 1, SeqMaxDigits(|tracks|), env)
  {
  }

  /** Downloads track i of the batch, under its sequence number i + 1. */
  method DownloadNext(tracks: seq<Track>, plan: Plan, seqMaxDigits: nat, env: Environment, i: nat)
    returns (result: Result<bool, Error>)
    requires i < |tracks|
    ensures OutcomesUpTo(tracks, plan, seqMaxDigits, env, i + 1) == OutcomesUpTo(tracks, plan, seqMaxDigits, env, i) + [result]
  {
    result := DownloadTrack(tracks[i], plan, i + 1, seqMaxDigits, env);
    OutcomesUpToNext(tracks, plan, seqMaxDigits, env, i, result);
  }

  /** Records one outcome: a failure with the track's id, a skip in the count. */
  method Record(tracks: seq<Track>, i: nat, errors: seq<(Error, TrackId)>, skipped: nat,
                ghost os: seq<Result<bool, Error>>, result: Result<bool, Error>)
    returns (errors': seq<(Error, TrackId)>, skipped': nat)
    requires |os| == i < |tracks|
    requires errors == Failures(tracks, os) && skipped == Skipped(os)
    ensures errors' == Failures(tracks, os + [result]) && skipped' == Skipped(os + [result])
  {
    TallyStep(tracks, os, result, i);
    errors', skipped' := errors, skipped;
    if result.Err? {
      errors' := errors + [(result.error, tracks[i].id)];
    } else if !result.value {
      skipped' := skipped + 1;
    }
  }

  /** Downloads each track in turn, recording failures and counting skips. */
  method Tally(tracks: seq<Track>, plan: Plan, seqMaxDigits: nat, env: Environment)
    returns (errors: seq<(Error, TrackId)>, skipped: nat)
    requires seqMaxDigits == SeqMaxDigits(|tracks|)
    ensures errors == Failures(tracks, Outcomes(tracks, plan, env))
    ensures skipped == Skipped(Outcomes(tracks, plan, env))
  {
    errors := [];
    skipped := 0;
    ghost var os: seq<Result<bool, Error>> := [];
    OutcomesUpToEnds(tracks, plan, env);
    for i := 0 to |tracks|
      invariant os == OutcomesUpTo(tracks, plan, seqMaxDigits, env, i)
      invariant errors == Failures(tracks, os) && skipped == Skipped(os)
    {
      var result := DownloadNext(tracks, plan, seqMaxDigits, env, i);
      errors, skipped := Record(tracks, i, errors, skipped, os, result);
      os := os + [result];
    }
  }

  /**
   * The whole run: configuration checks, then the resolved tracks one at a
   * time; a failing track is recorded and the loop goes on.
   */
  method Download(cfg: Config, cli: Args, resolved: Result<seq<Track>, Error>, env: Environment)
    returns (r: Result<Summary, Error>)
    ensures r == DownloadSpec(cfg, cli, resolved, env)
  {
    var pathTemplate := Compile(cli.output.GetOr(cfg.output));
    if pathTemplate.Err? {
      return Err(BadTemplate(pathTemplate.error));
    }
    var profileName := cli.encodingProfile.GetOr(cfg.defaultProfile);
    if profileName !in cfg.profiles {
      return Err(ProfileNotFound(profileName));
    }
    var profile := cfg.profiles[profileName];
    var allowed := AllowedFormats(profile.quality);
    if allowed.Err? {
      return Err(allowed.error);
    }

    var profileFfargs := CompileProfileArgs(profile.args);
    if profileFfargs.Err? {
      return Err(profileFfargs.error);
    }

    if resolved.Err? {
      return Err(resolved.error);
    }
    var tracks := resolved.value;
    var trackCount := |tracks|;
    var seqMaxDigits := |NatToDecimal(trackCount)|;
    var plan := Plan(pathTemplate.value, profile, allowed.value, profileFfargs.value, cfg.artistsSeparator,
                     cfg.maxFilenameLen, cli.skipExisting, cli.externalCoverArt);
    assert Setup(cfg, cli) == Ok(plan);
    var errors, skipped := Tally(tracks, plan, seqMaxDigits, env);
    return Ok(Summary(errors, skipped));
  }
}

=== FILE: template.dfy ===
/**
 * The path and argument template engine: a pattern such as `%a/%b/%s %t` is
 * compiled once into components (literal text and field references) and then
 * rendered against each track's field set. `%` is the marker; the nine field
 * codes are `a t b s n d l y p`.
 */
module Template {
  import opened Wrappers
  import opened Decimal

  datatype Component =
    | Literal(text: string)
    | Artists
    | Title
    | Album
    | Seq
    | Track
    | Disc
    | Language
    | Year
    | Publisher

  datatype TemplateError = InvalidTemplate(pattern: string)

  /** Per-track values a template can refer to. */
  datatype Fields = Fields(
    artists: string,
    title: string,
    album: string,
    seqNumber: nat,
    seqDigits: nat,
    track: int,
    disc: int,
    language: string,
    year: int,
    publisher: string)
  {
    /** No string field holds a character that is reserved in a path. */
    predicate PathSafe() {
      Clean(artists) && Clean(title) && Clean(album) && Clean(language) && Clean(publisher)
    }

    /** The field set used for destination paths: every string field sanitised, every number kept. */
    function Sanitize(): Fields {
      Fields(
        SanitizeString(artists),
        SanitizeString(title),
        SanitizeString(album),
        seqNumber,
        seqDigits,
        track,
        disc,
        SanitizeString(language),
        year,
        SanitizeString(publisher))
    }
  }

  // ---------------------------------------------------------------------------
  // Sanitisation (unix reserved set)

  /** A character that may not appear in a path component; on unix only `/`. */
  predicate Reserved(c: char) {
    c == '/'
  }

  predicate Clean(s: string) {
    forall i :: 0 <= i < |s| ==> !Reserved(s[i])
  }

  /** `r` is `s` with every reserved character replaced by one space and every other kept. */
  predicate Replaces(s: string, r: string) {
    |r| == |s| && forall i :: 0 <= i < |s| ==> r[i] == if Reserved(s[i]) then ' ' else s[i]
  }

  /** Each reserved character turned into a space, every other character kept. */
  function ReplaceReserved(s: string): string {
    if s == [] then []
    else [if Reserved(s[0]) then ' ' else s[0]] + ReplaceReserved(s[1..])
  }

  lemma {:induction false} ReplaceReservedReplaces(s: string)
    ensures Replaces(s, ReplaceReserved(s))
    decreases |s|
  {
    if s != [] {
      ReplaceReservedReplaces(s[1..]);
      var r := ReplaceReserved(s);
      assert r == [if Reserved(s[0]) then ' ' else s[0]] + ReplaceReserved(s[1..]);
      forall i | 0 <= i < |s|
        ensures r[i] == if Reserved(s[i]) then ' ' else s[i]
      {
        if i > 0 {
          assert r[i] == ReplaceReserved(s[1..])[i - 1];
          assert s[i] == s[1..][i - 1];
        }
      }
    }
  }

  /**
   * The input itself when it holds no reserved character, otherwise a copy
   * with each reserved character turned into a space.
   */
  function SanitizeString(s: string): string {
    if exists i :: 0 <= i < |s| && Reserved(s[i]) then ReplaceReserved(s) else s
  }

  /**
   * A sanitised string holds no reserved character; it is the input with each
   * reserved character replaced by a space, and a clean input is kept as is.
   */
  lemma SanitizeStringMeaning(s: string)
    ensures Clean(s) ==> SanitizeString(s) == s
    ensures Replaces(s, SanitizeString(s))
    ensures Clean(SanitizeString(s))
  {
    ReplaceReservedReplaces(s);
  }

  /**
   * Sanitising a field set makes it path-safe, replaces each reserved character
   * of each string field by a space, keeps every number, and leaves an already
   * safe field set as it is.
   */
  lemma SanitizeMeaning(f: Fields)
    ensures f.Sanitize().PathSafe()
    ensures var r := f.Sanitize();
            && r.seqNumber == f.seqNumber && r.seqDigits == f.seqDigits
            && r.track == f.track && r.disc == f.disc && r.year == f.year
    ensures var r := f.Sanitize();
            && Replaces(f.artists, r.artists) && Replaces(f.title, r.title) && Replaces(f.album, r.album)
            && Replaces(f.language, r.language) && Replaces(f.publisher, r.publisher)
    ensures f.PathSafe() ==> f.Sanitize() == f
  {
    SanitizeStringMeaning(f.artists);
    SanitizeStringMeaning(f.title);
    SanitizeStringMeaning(f.album);
    SanitizeStringMeaning(f.language);
    SanitizeStringMeaning(f.publisher);
  }

  lemma SanitizeStringIdempotent(s: string)
    ensures SanitizeString(SanitizeString(s)) == SanitizeString(s)
  {
    SanitizeStringMeaning(s);
    SanitizeStringMeaning(SanitizeString(s));
  }

  lemma SanitizeIdempotent(f: Fields)
    ensures f.Sanitize().Sanitize() == f.Sanitize()
  {
    SanitizeMeaning(f);
    SanitizeMeaning(f.Sanitize());
  }

  // ---------------------------------------------------------------------------
  // Field codes and the printed form of components

  /** The field a code letter after `%` stands for. */
  function FieldFor(code: char): (r: Option<Component>)
    ensures r.Some? <==> code in "atbsndlyp"
    ensures r.Some? ==> !r.value.Literal?
  {
    match code
    case 'a' => Some(Artists)
    case 't' => Some(Title)
    case 'b' => Some(Album)
    case 's' => Some(Seq)
    case 'n' => Some(Track)
    case 'd' => Some(Disc)
    case 'l' => Some(Language)
    case 'y' => Some(Year)
    case 'p' => Some(Publisher)
    case _ => None
  }

  /** The code letter of a field component. */
  function Code(c: Component): (code: char)
    requires !c.Literal?
    ensures FieldFor(code) == Some(c)
    ensures code != '%'
  {
    match c
    case Artists => 'a'
    case Title => 't'
    case Album => 'b'
    case Seq => 's'
    case Track => 'n'
    case Disc => 'd'
    case Language => 'l'
    case Year => 'y'
    case Publisher => 'p'
  }

  lemma CodeOfFieldFor(code: char)
    requires FieldFor(code).Some?
    ensures Code(FieldFor(code).value) == code
  {
  }

  /** The pattern text a component was compiled from. */
  function Piece(c: Component): string {
    if c.Literal? then c.text else ['%', Code(c)]
  }

  /** Prints components back as a pattern. */
  function Unparse(cs: seq<Component>): string {
    if cs == [] then [] else Piece(cs[0]) + Unparse(cs[1..])
  }

  predicate NoMarker(s: string) {
    forall i :: 0 <= i < |s| ==> s[i] != '%'
  }

  /** Every `%` of the pattern is followed by one of the nine codes. */
  predicate WellFormed(p: string) {
    forall i :: 0 <= i < |p| && p[i] == '%' ==> i + 1 < |p| && FieldFor(p[i + 1]).Some?
  }

  /**
   * The shape compilation produces: literals are non-empty and marker-free,
   * and no two literals are adjacent.
   */
  predicate Canonical(cs: seq<Component>) {
    && (forall i :: 0 <= i < |cs| && cs[i].Literal? ==> cs[i].text != [] && NoMarker(cs[i].text))
    && (forall i :: 0 <= i < |cs| - 1 && cs[i].Literal? ==> !cs[i + 1].Literal?)
  }

  // ---------------------------------------------------------------------------
  // Compilation: the specification

  /** Length of the longest marker-free prefix of `p`. */
  function LiteralRun(p: string): (n: nat)
    ensures n <= |p| && NoMarker(p[..n])
    ensures n < |p| ==> p[n] == '%'
  {
    if p == [] || p[0] == '%' then 0
    else
      var m := LiteralRun(p[1..]);
      assert p[..m + 1] == [p[0]] + p[1..][..m];
      m + 1
  }

  lemma WellFormedAfterField(p: string)
    requires |p| >= 2 && p[0] == '%' && FieldFor(p[1]).Some?
    ensures WellFormed(p) <==> WellFormed(p[2..])
  {
    if WellFormed(p[2..]) {
      forall i | 0 <= i < |p| && p[i] == '%'
        ensures i + 1 < |p| && FieldFor(p[i + 1]).Some?
      {
        if i >= 2 {
          assert p[2..][i - 2] == '%';
        }
      }
    }
    if WellFormed(p) {
      forall i | 0 <= i < |p[2..]| && p[2..][i] == '%'
        ensures i + 1 < |p[2..]| && FieldFor(p[2..][i + 1]).Some?
      {
        assert p[i + 2] == '%';
      }
    }
  }

  lemma WellFormedAfterLiteral(p: string, n: nat)
    requires n <= |p| && NoMarker(p[..n])
    ensures WellFormed(p) <==> WellFormed(p[n..])
  {
    if WellFormed(p[n..]) {
      forall i | 0 <= i < |p| && p[i] == '%'
        ensures i + 1 < |p| && FieldFor(p[i + 1]).Some?
      {
        if i >= n {
          assert p[n..][i - n] == '%';
        }
      }
    }
    if WellFormed(p) {
      forall i | 0 <= i < |p[n..]| && p[n..][i] == '%'
        ensures i + 1 < |p[n..]| && FieldFor(p[n..][i + 1]).Some?
      {
        assert p[i + n] == '%';
      }
    }
  }

  lemma CanonicalCons(c: Component, cs: seq<Component>)
    requires Canonical(cs)
    requires c.Literal? ==> c.text != [] && NoMarker(c.text)
    requires c.Literal? && cs != [] ==> !cs[0].Literal?
    ensures Canonical([c] + cs)
  {
    var r := [c] + cs;
    forall i | 0 <= i < |r| - 1 && r[i].Literal?
      ensures !r[i + 1].Literal?
    {
      if i > 0 {
        assert r[i] == cs[i - 1] && r[i + 1] == cs[i];
      }
    }
  }

  lemma UnparseCons(c: Component, cs: seq<Component>)
    ensures Unparse([c] + cs) == Piece(c) + Unparse(cs)
  {
    assert ([c] + cs)[1..] == cs;
  }

  /**
   * The components of a pattern, read from the front: a maximal run of
   * marker-free text becomes one literal, `%` and a code become a field, and
   * anything else is rejected.
   */
  function Components(p: string): (r: Option<seq<Component>>)
    ensures r.Some? <==> WellFormed(p)
    ensures r.Some? ==> Canonical(r.value) && Unparse(r.value) == p
    ensures r.Some? && p != [] && p[0] == '%' ==> r.value != [] && !r.value[0].Literal?
    decreases |p|
  {
    if p == [] then Some([])
    else if p[0] == '%' then
      if |p| >= 2 && FieldFor(p[1]).Some? then
        WellFormedAfterField(p);
        var field := FieldFor(p[1]).value;
        match Components(p[2..])
        case None => None
        case Some(cs) =>
          FieldPrefix(p, cs);
          Some([field] + cs)
      else
        assert !WellFormed(p) by {
          assert p[0] == '%';
        }
        None
    else
      var n := LiteralRun(p);
      WellFormedAfterLiteral(p, n);
      match Components(p[n..])
      case None => None
      case Some(cs) =>
        LiteralPrefix(p, cs);
        Some([Literal(p[..n])] + cs)
  }

  /** A field's code in front of the rest's components prints back to the whole pattern. */
  lemma FieldPrefix(p: string, cs: seq<Component>)
    requires |p| >= 2 && p[0] == '%' && FieldFor(p[1]).Some?
    requires Canonical(cs) && Unparse(cs) == p[2..]
    ensures Canonical([FieldFor(p[1]).value] + cs) && Unparse([FieldFor(p[1]).value] + cs) == p
  {
    var field := FieldFor(p[1]).value;
    CanonicalCons(field, cs);
    UnparseCons(field, cs);
    CodeOfFieldFor(p[1]);
    assert p == ['%', p[1]] + p[2..];
  }

  /** The leading marker-free run as one literal in front of the rest's components. */
  lemma LiteralPrefix(p: string, cs: seq<Component>)
    requires p != [] && p[0] != '%'
    requires Canonical(cs) && Unparse(cs) == p[LiteralRun(p)..]
    requires cs != [] ==> !cs[0].Literal?
    ensures Canonical([Literal(p[..LiteralRun(p)])] + cs)
    ensures Unparse([Literal(p[..LiteralRun(p)])] + cs) == p
  {
    LiteralPrefixCanonical(p, cs);
    LiteralPrefixUnparse(p, cs);
  }

  lemma LiteralPrefixCanonical(p: string, cs: seq<Component>)
    requires p != [] && p[0] != '%'
    requires Canonical(cs) && (cs != [] ==> !cs[0].Literal?)
    ensures Canonical([Literal(p[..LiteralRun(p)])] + cs)
  {
    var n := LiteralRun(p);
    assert n >= 1;
    CanonicalCons(Literal(p[..n]), cs);
  }

  lemma LiteralPrefixUnparse(p: string, cs: seq<Component>)
    requires Unparse(cs) == p[LiteralRun(p)..]
    ensures Unparse([Literal(p[..LiteralRun(p)])] + cs) == p
  {
    var n := LiteralRun(p);
    UnparseCons(Literal(p[..n]), cs);
    assert p[..n] + p[n..] == p;
  }

  /**
   * What `compile` returns: the components of a well-formed pattern, and
   * otherwise an error naming the pattern. The components print back to
   * exactly the pattern and have the canonical shape.
   */
  function Compiled(p: string): (r: Result<seq<Component>, TemplateError>)
    ensures r.Ok? <==> WellFormed(p)
    ensures r.Err? ==> r.error == InvalidTemplate(p)
    ensures r.Ok? ==> Unparse(r.value) == p && Canonical(r.value)
  {
    match Components(p)
    case None => Err(InvalidTemplate(p))
    case Some(cs) => Ok(cs)
  }

  // ---------------------------------------------------------------------------
  // Compilation: the round trip

  lemma {:induction false} CanonicalTail(cs: seq<Component>)
    requires Canonical(cs) && cs != []
    ensures Canonical(cs[1..])
  {
    var t := cs[1..];
    forall i | 0 <= i < |t| - 1 && t[i].Literal?
      ensures !t[i + 1].Literal?
    {
      assert t[i] == cs[i + 1] && t[i + 1] == cs[i + 2];
    }
  }

  lemma {:induction false} UnparseStartsWithMarker(cs: seq<Component>)
    requires Canonical(cs) && cs != [] && !cs[0].Literal?
    ensures Unparse(cs) != [] && Unparse(cs)[0] == '%'
  {
  }

  lemma {:induction false} UnparseEmpty(cs: seq<Component>)
    requires Canonical(cs)
    ensures Unparse(cs) == [] <==> cs == []
  {
    if cs != [] {
      assert |Piece(cs[0])| >= 1;
    }
  }

  lemma {:induction false} LiteralRunOf(t: string, rest: string)
    requires NoMarker(t)
    requires rest == [] || rest[0] == '%'
    ensures LiteralRun(t + rest) == |t|
    decreases |t|
  {
    if t != [] {
      assert (t + rest)[1..] == t[1..] + rest;
      LiteralRunOf(t[1..], rest);
    } else {
      assert t + rest == rest;
    }
  }

  /** The literal at the head of a canonical sequence is the whole marker-free prefix of its print. */
  lemma HeadLiteralIsRun(cs: seq<Component>)
    requires Canonical(cs) && cs != [] && cs[0].Literal?
    ensures cs[0].text == Unparse(cs)[..LiteralRun(Unparse(cs))]
  {
    var rest := Unparse(cs[1..]);
    CanonicalTail(cs);
    if cs[1..] != [] {
      assert cs[1..][0] == cs[1];
      UnparseStartsWithMarker(cs[1..]);
    } else {
      UnparseEmpty(cs[1..]);
    }
    LiteralRunOf(cs[0].text, rest);
    assert Unparse(cs) == cs[0].text + rest;
  }

  /** Two canonical component sequences that print the same are the same. */
  lemma {:induction false} UnparseInjective(a: seq<Component>, b: seq<Component>)
    requires Canonical(a) && Canonical(b)
    requires Unparse(a) == Unparse(b)
    ensures a == b
    decreases |a|
  {
    UnparseEmpty(a);
    UnparseEmpty(b);
    if a != [] {
      var s := Unparse(a);
      CanonicalTail(a);
      CanonicalTail(b);
      if a[0].Literal? && b[0].Literal? {
        HeadLiteralIsRun(a);
        HeadLiteralIsRun(b);
        var n := |a[0].text|;
        assert s == a[0].text + Unparse(a[1..]);
        assert s == b[0].text + Unparse(b[1..]);
        assert Unparse(a[1..]) == s[n..] == Unparse(b[1..]);
        UnparseInjective(a[1..], b[1..]);
        assert a == [a[0]] + a[1..];
        assert b == [b[0]] + b[1..];
      } else if !a[0].Literal? && !b[0].Literal? {
        assert s == ['%', Code(a[0])] + Unparse(a[1..]);
        assert s == ['%', Code(b[0])] + Unparse(b[1..]);
        assert Code(a[0]) == s[1] == Code(b[0]);
        assert FieldFor(s[1]) == Some(a[0]) == Some(b[0]);
        assert Unparse(a[1..]) == s[2..] == Unparse(b[1..]);
        UnparseInjective(a[1..], b[1..]);
        assert a == [a[0]] + a[1..];
        assert b == [b[0]] + b[1..];
      } else if a[0].Literal? {
        UnparseStartsWithMarker(b);
        assert false;
      } else {
        UnparseStartsWithMarker(a);
        assert false;
      }
    }
  }

  /** Printing canonical components always yields a pattern that compiles. */
  lemma {:induction false} UnparseWellFormed(cs: seq<Component>)
    requires Canonical(cs)
    ensures WellFormed(Unparse(cs))
    decreases |cs|
  {
    if cs != [] {
      CanonicalTail(cs);
      UnparseWellFormed(cs[1..]);
      var p := Unparse(cs);
      if cs[0].Literal? {
        assert p == cs[0].text + Unparse(cs[1..]);
        assert p[..|cs[0].text|] == cs[0].text;
        assert p[|cs[0].text|..] == Unparse(cs[1..]);
        WellFormedAfterLiteral(p, |cs[0].text|);
      } else {
        assert p == ['%', Code(cs[0])] + Unparse(cs[1..]);
        assert p[2..] == Unparse(cs[1..]);
        WellFormedAfterField(p);
      }
    }
  }

  /** Compiling the print of canonical components gives those components back. */
  lemma CompileUnparse(cs: seq<Component>)
    requires Canonical(cs)
    ensures Compiled(Unparse(cs)) == Ok(cs)
  {
    UnparseWellFormed(cs);
    UnparseInjective(Compiled(Unparse(cs)).value, cs);
  }

  /**
   * A pattern without any marker always compiles: to nothing when empty,
   * otherwise to one literal holding the whole pattern.
   */
  lemma CompileWithoutMarker(p: string)
    requires NoMarker(p)
    ensures Compiled(p) == Ok(if p == [] then [] else [Literal(p)])
  {
    if p != [] {
      var cs := [Literal(p)];
      assert Unparse(cs) == p by {
        UnparseCons(Literal(p), []);
      }
      CompileUnparse(cs);
    }
  }

  // ---------------------------------------------------------------------------
  // Compilation: the scanning loop

  lemma UnparseSnoc(cs: seq<Component>, c: Component)
    ensures Unparse(cs + [c]) == Unparse(cs) + Piece(c)
    decreases |cs|
  {
    if cs == [] {
      assert [] + [c] == [c];
      UnparseCons(c, []);
    } else {
      assert (cs + [c])[1..] == cs[1..] + [c];
      UnparseSnoc(cs[1..], c);
    }
  }

  lemma CanonicalSnoc(cs: seq<Component>, c: Component)
    requires Canonical(cs)
    requires c.Literal? ==> c.text != [] && NoMarker(c.text)
    requires c.Literal? && cs != [] ==> !cs[|cs| - 1].Literal?
    ensures Canonical(cs + [c])
  {
  }

  /**
   * What the scan knows after reading `p[..pos]`: `cs` prints as `p[..prevPos]`,
   * the text from `prevPos` up to `pos` is still marker-free, and every `%`
   * seen so far had a valid code.
   */
  ghost predicate Scanned(p: string, pos: nat, prevPos: nat, cs: seq<Component>) {
    && pos <= |p| && prevPos <= pos + 1 && prevPos <= |p|
    && (prevPos == pos + 1 ==> FieldFor(p[pos]).Some?)
    && (prevPos <= pos ==> NoMarker(p[prevPos..pos]))
    && Unparse(cs) == p[..prevPos]
    && Canonical(cs)
    && (cs != [] ==> !cs[|cs| - 1].Literal?)
    && MarkersValidBefore(p, pos)
  }

  /** Every `%` before position `n` is followed by one of the nine codes. */
  ghost predicate MarkersValidBefore(p: string, n: nat) {
    forall i :: 0 <= i < n && i < |p| && p[i] == '%' ==> i + 1 < |p| && FieldFor(p[i + 1]).Some?
  }

  lemma MarkersValidStep(p: string, n: nat)
    requires MarkersValidBefore(p, n) && n < |p|
    requires p[n] == '%' ==> n + 1 < |p| && FieldFor(p[n + 1]).Some?
    ensures MarkersValidBefore(p, n + 1)
  {
  }

  lemma ScanPlain(p: string, pos: nat, prevPos: nat, cs: seq<Component>)
    requires Scanned(p, pos, prevPos, cs) && pos < |p| && p[pos] != '%'
    ensures Scanned(p, pos + 1, prevPos, cs)
  {
    if prevPos <= pos {
      assert p[prevPos..pos + 1] == p[prevPos..pos] + [p[pos]];
    }
    MarkersValidStep(p, pos);
  }

  /** Cutting the pending literal at a `%`: the components then print as everything before it. */
  lemma ScanCut(p: string, pos: nat, prevPos: nat, cs: seq<Component>, withLiteral: seq<Component>)
    requires Scanned(p, pos, prevPos, cs) && prevPos <= pos
    requires withLiteral == if p[prevPos..pos] != [] then cs + [Literal(p[prevPos..pos])] else cs
    ensures Unparse(withLiteral) == p[..pos] && Canonical(withLiteral)
  {
    var literal := p[prevPos..pos];
    if literal != [] {
      UnparseSnoc(cs, Literal(literal));
      CanonicalSnoc(cs, Literal(literal));
      assert p[..pos] == p[..prevPos] + literal;
    } else {
      assert p[..pos] == p[..prevPos];
    }
  }

  /** Cutting the pending literal at a `%` and appending the field its code names. */
  lemma ScanMarker(p: string, pos: nat, prevPos: nat, cs: seq<Component>, withLiteral: seq<Component>)
    requires Scanned(p, pos, prevPos, cs) && pos + 1 < |p| && p[pos] == '%'
    requires FieldFor(p[pos + 1]).Some?
    requires prevPos <= pos
    requires withLiteral == if p[prevPos..pos] != [] then cs + [Literal(p[prevPos..pos])] else cs
    ensures Scanned(p, pos + 1, pos + 2, withLiteral + [FieldFor(p[pos + 1]).value])
  {
    ScanCut(p, pos, prevPos, cs, withLiteral);
    ScanField(p, pos, withLiteral);
    var next := withLiteral + [FieldFor(p[pos + 1]).value];
    assert !next[|next| - 1].Literal?;
    MarkersValidStep(p, pos);
    assert FieldFor(p[(pos + 2) - 1]).Some?;
    assert pos + 2 <= |p|;
  }

  /** Appending the field of a `%` and its code extends the printed prefix by those two characters. */
  lemma ScanField(p: string, pos: nat, cs: seq<Component>)
    requires pos + 1 < |p| && p[pos] == '%' && FieldFor(p[pos + 1]).Some?
    requires Unparse(cs) == p[..pos] && Canonical(cs)
    ensures Unparse(cs + [FieldFor(p[pos + 1]).value]) == p[..pos + 2]
    ensures Canonical(cs + [FieldFor(p[pos + 1]).value])
  {
    var field := FieldFor(p[pos + 1]).value;
    CodeOfFieldFor(p[pos + 1]);
    UnparseSnoc(cs, field);
    CanonicalSnoc(cs, field);
    assert Piece(field) == ['%', p[pos + 1]];
    assert p[..pos + 2] == p[..pos] + ['%', p[pos + 1]];
  }

  /** At the end of the pattern the remainder becomes the last literal, and the result is the specification's. */
  lemma ScanEnd(p: string, prevPos: nat, cs: seq<Component>, result: seq<Component>)
    requires Scanned(p, |p|, prevPos, cs)
    requires result == if p[prevPos..] != [] then cs + [Literal(p[prevPos..])] else cs
    ensures Compiled(p) == Ok(result)
  {
    assert p[prevPos..|p|] == p[prevPos..];
    ScanCut(p, |p|, prevPos, cs, result);
    assert p[..|p|] == p;
    assert MarkersValidBefore(p, |p|);
    assert WellFormed(p);
    UnparseInjective(result, Compiled(p).value);
  }

  /**
   * Scans the pattern once, left to right, cutting literal text at each `%`
   * and reading the code after it; fails on the first `%` without a valid code.
   */
  method Compile(pattern: string) returns (r: Result<seq<Component>, TemplateError>)
    ensures r == Compiled(pattern)
  {
    var prevPos := 0;
    var components: seq<Component> := [];
    for pos := 0 to |pattern|
      invariant Scanned(pattern, pos, prevPos, components)
    {
      if pattern[pos] == '%' {
        ghost var before := components;
        var literal := pattern[prevPos..pos];
        if literal != [] {
          components := components + [Literal(literal)];
        }
        var field := if pos + 1 < |pattern| then FieldFor(pattern[pos + 1]) else None;
        if field.None? {
          return Err(InvalidTemplate(pattern));
        }
        ScanMarker(pattern, pos, prevPos, before, components);
        prevPos := pos + 2;
        components := components + [field.value];
      } else {
        ScanPlain(pattern, pos, prevPos, components);
      }
    }
    var remainder := pattern[prevPos..];
    ghost var before := components;
    if remainder != [] {
      components := components + [Literal(remainder)];
    }
    ScanEnd(pattern, prevPos, before, components);
    return Ok(components);
  }

  // ---------------------------------------------------------------------------
  // Rendering

  /** One component's text for a field set. */
  function RenderComponent(c: Component, f: Fields): string {
    match c
    case Literal(l) => l
    case Artists => f.artists
    case Title => f.title
    case Album => f.album
    case Seq => PaddedNat(f.seqNumber, f.seqDigits)
    case Track => IntToDecimal(f.track)
    case Disc => IntToDecimal(f.disc)
    case Language => f.language
    case Year => IntToDecimal(f.year)
    case Publisher => f.publisher
  }

  /** The rendered string: every component's text, in order. */
  function Render(t: seq<Component>, f: Fields): string {
    if t == [] then [] else RenderComponent(t[0], f) + Render(t[1..], f)
  }

  lemma RenderSnoc(t: seq<Component>, c: Component, f: Fields)
    ensures Render(t + [c], f) == Render(t, f) + RenderComponent(c, f)
    decreases |t|
  {
    if t == [] {
      assert [] + [c] == [c];
    } else {
      assert (t + [c])[1..] == t[1..] + [c];
      RenderSnoc(t[1..], c, f);
    }
  }

  /** Appends each component's text to the output in turn. */
  method Resolve(t: seq<Component>, f: Fields) returns (output: string)
    ensures output == Render(t, f)
  {
    output := [];
    for i := 0 to |t|
      invariant output == Render(t[..i], f)
    {
      RenderSnoc(t[..i], t[i], f);
      assert t[..i + 1] == t[..i] + [t[i]];
      output := output + RenderComponent(t[i], f);
    }
    assert t[..|t|] == t;
  }

  /**
   * An independent reading of a pattern: each `%` and code is replaced by the
   * field's text and every other character is copied.
   */
  function Expand(p: string, f: Fields): string
    decreases |p|
  {
    if p == [] then []
    else if |p| >= 2 && p[0] == '%' && FieldFor(p[1]).Some? then
      RenderComponent(FieldFor(p[1]).value, f) + Expand(p[2..], f)
    else [p[0]] + Expand(p[1..], f)
  }

  lemma {:induction false} ExpandLiteral(t: string, rest: string, f: Fields)
    requires NoMarker(t)
    ensures Expand(t + rest, f) == t + Expand(rest, f)
    decreases |t|
  {
    if t == [] {
      assert t + rest == rest;
    } else {
      var p := t + rest;
      assert p[0] == t[0] && t[0] != '%';
      assert p[1..] == t[1..] + rest;
      ExpandPlain(p, f);
      assert NoMarker(t[1..]) by {
        forall i | 0 <= i < |t[1..]|
          ensures t[1..][i] != '%'
        {
          assert t[1..][i] == t[i + 1];
        }
      }
      ExpandLiteral(t[1..], rest, f);
      var e := Expand(rest, f);
      assert [t[0]] + (t[1..] + e) == ([t[0]] + t[1..]) + e;
      assert [t[0]] + t[1..] == t;
    }
  }

  lemma ExpandPlain(p: string, f: Fields)
    requires p != [] && p[0] != '%'
    ensures Expand(p, f) == [p[0]] + Expand(p[1..], f)
  {
  }

  lemma RenderCons(c: Component, t: seq<Component>, f: Fields)
    ensures Render([c] + t, f) == RenderComponent(c, f) + Render(t, f)
  {
    assert ([c] + t)[1..] == t;
  }

  lemma {:induction false} RenderComponentsIsExpand(p: string, f: Fields)
    requires WellFormed(p)
    ensures Render(Components(p).value, f) == Expand(p, f)
    decreases |p|
  {
    if p != [] {
      if p[0] == '%' {
        WellFormedAfterField(p);
        var field := FieldFor(p[1]).value;
        RenderComponentsIsExpand(p[2..], f);
        assert Components(p).value == [field] + Components(p[2..]).value;
        RenderCons(field, Components(p[2..]).value, f);
      } else {
        var n := LiteralRun(p);
        WellFormedAfterLiteral(p, n);
        RenderComponentsIsExpand(p[n..], f);
        assert Components(p).value == [Literal(p[..n])] + Components(p[n..]).value;
        RenderCons(Literal(p[..n]), Components(p[n..]).value, f);
        assert p == p[..n] + p[n..];
        ExpandLiteral(p[..n], p[n..], f);
      }
    }
  }

  /**
   * Rendering a compiled pattern is the same as substituting the fields
   * directly into the pattern text.
   */
  lemma RenderCompiled(p: string, f: Fields)
    requires WellFormed(p)
    ensures Render(Compiled(p).value, f) == Expand(p, f)
  {
    RenderComponentsIsExpand(p, f);
  }

  /** A pattern without markers renders to itself whatever the fields are. */
  lemma RenderWithoutMarker(p: string, f: Fields)
    requires NoMarker(p)
    ensures Render(Compiled(p).value, f) == p
  {
    CompileWithoutMarker(p);
    if p != [] {
      assert Render([Literal(p)], f) == p + Render([], f);
    }
  }

  lemma {:induction false} DecimalClean(s: string)
    requires AllDigits(s)
    ensures Clean(s) && Clean("-" + s)
  {
  }

  /**
   * A destination path rendered from sanitised fields holds a reserved
   * character only where the pattern's own literal text has one.
   */
  lemma {:induction false} SanitizedRenderClean(t: seq<Component>, f: Fields)
    requires forall i :: 0 <= i < |t| && t[i].Literal? ==> Clean(t[i].text)
    ensures Clean(Render(t, f.Sanitize()))
    decreases |t|
  {
    if t != [] {
      SanitizedRenderClean(t[1..], f);
      SanitizedComponentClean(t[0], f);
      CleanConcat(RenderComponent(t[0], f.Sanitize()), Render(t[1..], f.Sanitize()));
    }
  }

  lemma CleanPrefix(s: string, n: nat)
    requires Clean(s) && n <= |s|
    ensures Clean(s[..n])
  {
    assert forall i :: 0 <= i < n ==> s[..n][i] == s[i];
  }

  lemma CleanConcat(a: string, b: string)
    requires Clean(a) && Clean(b)
    ensures Clean(a + b)
  {
    assert forall i :: 0 <= i < |a + b| ==> (a + b)[i] == if i < |a| then a[i] else b[i - |a|];
  }

  /** The number of reserved characters in `s`, each of which would open a directory level. */
  function CountReserved(s: string): nat {
    if s == [] then 0 else (if Reserved(s[0]) then 1 else 0) + CountReserved(s[1..])
  }

  /** The reserved characters the template's own literals contribute. */
  function LiteralReserved(t: seq<Component>): nat {
    if t == [] then 0 else (if t[0].Literal? then CountReserved(t[0].text) else 0) + LiteralReserved(t[1..])
  }

  lemma {:induction false} CountReservedConcat(a: string, b: string)
    ensures CountReserved(a + b) == CountReserved(a) + CountReserved(b)
    decreases |a|
  {
    if a == [] {
      assert a + b == b;
    } else {
      assert (a + b)[0] == a[0] && (a + b)[1..] == a[1..] + b;
      CountReservedConcat(a[1..], b);
    }
  }

  /** A string has no reserved character exactly when it counts none. */
  lemma {:induction false} CountReservedClean(s: string)
    ensures CountReserved(s) == 0 <==> Clean(s)
    decreases |s|
  {
    if s != [] {
      CountReservedClean(s[1..]);
      assert Clean(s) <==> !Reserved(s[0]) && Clean(s[1..]) by {
        assert forall i :: 1 <= i < |s| ==> s[i] == s[1..][i - 1];
        if !Reserved(s[0]) && Clean(s[1..]) {
          forall i | 0 <= i < |s|
            ensures !Reserved(s[i])
          {
            if i > 0 {
              assert s[i] == s[1..][i - 1];
            }
          }
        }
      }
    }
  }

  /** Cutting a string never adds reserved characters. */
  lemma {:induction false} CountReservedPrefix(s: string, n: nat)
    requires n <= |s|
    ensures CountReserved(s[..n]) <= CountReserved(s)
    decreases n
  {
    if n > 0 {
      assert s[..n][0] == s[0] && s[..n][1..] == s[1..][..n - 1];
      CountReservedPrefix(s[1..], n - 1);
    }
  }

  /** Rendering one component from sanitised fields adds only a literal's own reserved characters. */
  lemma SanitizedComponentReserved(c: Component, f: Fields)
    ensures CountReserved(RenderComponent(c, f.Sanitize())) == if c.Literal? then CountReserved(c.text) else 0
  {
    if !c.Literal? {
      SanitizedComponentClean(c, f);
      CountReservedClean(RenderComponent(c, f.Sanitize()));
    }
  }

  /**
   * Every reserved character of a path rendered from sanitised fields comes
   * from the template's own literals: a field value can never open a
   * directory level, whatever it contains.
   */
  lemma {:induction false} SanitizedRenderReserved(t: seq<Component>, f: Fields)
    ensures CountReserved(Render(t, f.Sanitize())) == LiteralReserved(t)
    decreases |t|
  {
    if t != [] {
      SanitizedRenderReserved(t[1..], f);
      SanitizedComponentReserved(t[0], f);
      CountReservedConcat(RenderComponent(t[0], f.Sanitize()), Render(t[1..], f.Sanitize()));
    }
  }

  /** A field rendered from sanitised fields holds no reserved character. */
  lemma SanitizedComponentClean(c: Component, f: Fields)
    requires c.Literal? ==> Clean(c.text)
    ensures Clean(RenderComponent(c, f.Sanitize()))
  {
    var g := f.Sanitize();
    SanitizeMeaning(f);
    match c
    case Seq =>
      PaddedNatMeaning(g.seqNumber, g.seqDigits);
    case Track =>
      DecimalClean(NatToDecimal(if g.track < 0 then -g.track else g.track));
    case Disc =>
      DecimalClean(NatToDecimal(if g.disc < 0 then -g.disc else g.disc));
    case Year =>
      DecimalClean(NatToDecimal(if g.year < 0 then -g.year else g.year));
    case _ =>
  }

  /**
   * With the batch's digit width, a sequence number from 1 to the track count
   * renders as exactly that many digits, zero-padded, and reads back as itself.
   */
  lemma SeqFieldWidth(f: Fields, trackCount: nat)
    requires 1 <= f.seqNumber <= trackCount
    requires f.seqDigits == |NatToDecimal(trackCount)|
    ensures |RenderComponent(Seq, f)| == f.seqDigits
    ensures AllDigits(RenderComponent(Seq, f))
    ensures ParseDecimal(RenderComponent(Seq, f)) == f.seqNumber
  {
    DigitsMonotone(f.seqNumber, trackCount);
    PaddedNatMeaning(f.seqNumber, f.seqDigits);
  }
}

=== FILE: wrappers.dfy ===
/** Failure-carrying values shared by the template engine and the download pipeline. */
module Wrappers {

  datatype Option<+T> = None | Some(value: T) {
    function GetOr(default: T): T {
      match this
      case Some(v) => v
      case None => default
    }
  }

  /** The value of a fallible step: the success value or the error that stopped it. */
  datatype Result<+T, +E> = Ok(value: T) | Err(error: E)
}
